=== FILE: README.md ===
# Maze generator and step-by-step solver, modelled in Dafny

The program reads a row count and a column count and bumps each even one up
by one. It then carves a maze with an iterative, randomized depth-first
backtracker. Finally it solves the maze with a breadth-first search from
(1, 1) to the exit (width − 2, height − 2) and draws each step as a frame.

This project models those three phases and the grid-building half of
frame drawing:

- `grid.dfy`: cells (`Wall`, `Path`, `Solution`, and the `Entrance`/`Exit`
  frame markers), positions, rectangular grids, single-cell updates, the
  four directions in the program's order, and routes.
- `dimensions.dfy`: the parity coercion applied to each number read.
- `generator.dfy`: the carver.
  - Rooms are the interior cells with both coordinates odd.
  - Corridors are the interior cells with exactly one odd coordinate.
  - Pillars have both coordinates even.
  - The random shuffle is a parameter `shuffle: nat -> DirOrder`. It gives
    an arbitrary permutation of the four directions for each pop, and every
    property holds for every choice.
  - A ghost `Carving` record tracks the rooms in push order, each room's
    parent, and the open corridors. Each turn of the carver pushes onto the
    real stack exactly the rooms it appends to the record, in the same
    order. The record shows that the carved passages form a spanning tree.
- `frame.dfy`: the grid a solution frame shows.
  - The first `step + 1` path cells are marked `Solution`.
  - Then (1, 1) is marked `Entrance` and the exit is marked `Exit`.
- `solver.dfy`: the breadth-first search.
  - Each queue entry carries its whole path.
  - A neighbour is admitted when it is in the grid, unvisited, and `Path`.
  - Each admission draws one frame.
  - When the exit is taken off the queue, the search draws one more frame
    per prefix of its path.
  - The proof keeps a ghost map from each visited cell to its path length.
    It shows the queue stays in layers: its path lengths never decrease and
    span at most two consecutive values. This gives that a found path is
    shortest and that `NotFound` means no route exists.
- `program.dfy`: `main` without the I/O and timing: coerce, generate, solve.

The program's grid of `int`s becomes `seq<seq<Cell>>`, indexed
`g[y][x]` as in the source. The solver's boolean `visited` matrix
becomes a set of positions. The stack and the queue become sequences:
the stack top is the last element and the queue front is the first.

The carver marks a room `Path` at the moment it pushes it, and its push
test requires `Wall`, so every room is pushed exactly once.
`Generator.VisitTop` proves that each turn's pushes onto the stack are the
entries it appends to the record. `Generator.Generate` proves that the
record lists every room exactly once, and that the number of turns of its
outer loop equals the number of rooms.

## Model

| member | source | states |
|---|---|---|
| Dimensions.MakeOdd | maze.cpp:28-35 | the coerced dimension is odd, lies between n and n + 1, and equals n exactly when n was odd |
| Dimensions.MakeOddIsLeast | maze.cpp:28-35 | no odd number lies between n and the coerced value, so it is the least odd number not below n |
| Dimensions.MakeOddIdempotent | maze.cpp:28-35 | coercing an already coerced dimension changes nothing |
| Dimensions.MakeOddFitsInt | maze.cpp:28-35 | `height++` on an even 32-bit value cannot overflow |
| Grid.Update | maze.cpp:66-67 | writing one cell keeps the shape and changes that cell alone |
| Grid.Filled | maze.cpp:40 | the initial grid has `height` rows of `width` cells, all Wall |
| Grid.RouteLength | maze.cpp:150-158 | a path built one 4-adjacent step at a time has at least as many steps as the Manhattan distance from (1, 1) to its end |
| Generator.TryDirection | maze.cpp:60-69 | one direction at the popped room: the room two cells away and the corridor between turn Path and the room is pushed exactly when that room is strictly inside the border and Wall; otherwise grid and stack are unchanged |
| Generator.CarveKeepsValid | maze.cpp:65-68 | a carve step keeps the invariant: the grid's open cells are exactly the recorded rooms and corridors, each room is pushed once, rooms outnumber corridors by one, every new room hangs off its parent through the corridor between them, and every recorded room is stacked, pending or closed |
| Generator.TryKeepsValid | maze.cpp:59-70 | the invariant survives trying one direction, whether or not it carves; open cells stay open; the record appends the room exactly when the stack gains it |
| Generator.ExploreRoom | maze.cpp:56-70 | after all four directions in the drawn order, the popped room is closed: every room two cells away inside the border is open; the stack grew, on top of the entries already there, by exactly the rooms appended to the record, in order; no open cell turned back to Wall |
| Generator.VisitTop | maze.cpp:52-71 | one pop keeps the invariant; the stack loses the popped room, keeps every entry below it, and gains exactly the rooms appended to the record, in order; no open cell turns back to Wall; and either new rooms are recorded or the stack shrinks, so the loop ends |
| Generator.AllRoomsOpen | maze.cpp:52-71 | once every open room is closed, every room is open, by walking back towards (1, 1) two cells at a time |
| Generator.Connected | maze.cpp:65-68 | in a spanning-tree record every open cell has a route from (1, 1) through open cells |
| Generator.RouteTo | maze.cpp:65-68 | following parent links from a pushed room gives a route from (1, 1) to it |
| Generator.TreeOfRecord | maze.cpp:65-68 | the final grid and record form a spanning tree: every open non-room cell is the corridor joining one room to its parent |
| Generator.CountsMatch | maze.cpp:65-68 | the grid's open rooms and open corridors are exactly the recorded ones |
| Generator.FinishCells | maze.cpp:39-74 | at the end only Wall and Path occur, the border and the pillars are Wall, and every room is Path |
| Generator.FinishTree | maze.cpp:39-74 | at the end every open cell is reachable, the open cells form a tree with one more room than corridors, and each room was pushed exactly once, so there are as many pushes as rooms |
| Generator.Generate | maze.cpp:39-74 | for every shuffle: Wall/Path only, border and pillars Wall, every room Path, every open cell reachable from (1, 1), a spanning tree with one more open room than open corridors, each room pushed exactly once, and the outer loop ran once per room |
| Frame.MarkPrefix | maze.cpp:88-91 | the copy shows Solution on exactly the cells of the path prefix and the maze's own cell everywhere else |
| Frame.SolutionFrame | maze.cpp:87-94 | a frame is a grid of the maze's size showing Exit at the exit, otherwise Entrance at (1, 1), otherwise Solution on the path prefix, otherwise the maze's cell |
| Frame.ReplayAddsOneCell | maze.cpp:142-146 | consecutive replay frames differ only at the newly reached path cell, which then shows Solution unless a marker covers it |
| Frame.SolutionCellsOnPath | maze.cpp:87-94 | a cell shows Solution exactly when it is on the marked prefix and is neither marker cell |
| Solver.TryNeighbor | maze.cpp:151-163 | one neighbour: if it is in the grid, unvisited and Path, it is marked visited, queued with the extended path, and its frame shows that whole path; otherwise nothing changes |
| Solver.TryKeeps | maze.cpp:151-163 | the search invariant survives one neighbour test, and an open neighbour ends visited |
| Solver.AdmitKeeps | maze.cpp:154-161 | an admitted cell's path is a route to it, is shortest, and sits at the back of the queue at most one longer than the front |
| Solver.AdmittedShortest | maze.cpp:154-158 | a cell first admitted from a node at length L has no route shorter than L + 1 cells |
| Solver.UnvisitedFar | maze.cpp:137-165 | if every unexpanded visited cell has recorded length at least L, a route to an unvisited cell has more than L cells |
| Solver.AllReachedVisited | maze.cpp:137-165 | with every visited cell expanded, every cell reached by a route is visited |
| Solver.PopKeeps | maze.cpp:138-139 | the front path is the shortest queued one, the rest of the queue is at most one longer, and the front is a shortest route to its cell |
| Solver.ExpandNode | maze.cpp:150-164 | after the four directions, every open neighbour of the node is visited, the search invariant holds with nothing pending, the queue, admissions and frames keep their old entries in front, and the queue gains one entry per newly visited cell, each for such a cell |
| Solver.ReplayFrames | maze.cpp:141-147 | the replay has one frame per path cell, frame s showing the prefix ending at cell s |
| Solver.Arrived | maze.cpp:138-141 | when the exit is at the front of the queue, its path is a shortest route to it, every cell with a route no longer than that path was admitted, each admission is a shortest route, and none has more than one cell beyond that path |
| Solver.FrontCovered | maze.cpp:137-141 | every cell other than (1, 1) with a route no longer than the front path is the end of some admission |
| Solver.Drained | maze.cpp:137-167 | once the queue runs dry, no route reaches the exit, every cell a route reaches was admitted, and each admission is a shortest route |
| Solver.Reached | maze.cpp:141 | the path taken off the queue at the exit is a route to it that no route undercuts |
| Solver.Exhausted | maze.cpp:137-167 | when the queue runs dry, every reachable cell was visited and the exit is not reachable |
| Solver.Explore | maze.cpp:127-168 | the search loop: a found path is a shortest route to the exit, every cell other than (1, 1) with a route no longer than it was admitted first, and no admission is more than one cell longer than it; NotFound means no route reaches the exit and every reachable cell was admitted; admissions are distinct shortest routes in non-decreasing length, each drawn whole |
| Solver.Solve | maze.cpp:127-168 | as Explore, plus the frames: one per admission in order, then one per prefix of the found path |
| Program.Run | maze.cpp:177-198 | for sizes of at least 2, the grid has the coerced odd dimensions, the exit is Path, the search finds a shortest route to it, no shorter than width + height − 5 cells, after admitting along shortest routes every cell no farther than the exit and nothing more than one cell farther, and the last frame shows that whole route |
| Program.GenerateOdd | maze.cpp:182 | at odd dimensions the generated exit cell is Path and reachable |
| Program.ExitCarved | maze.cpp:141 | at odd dimensions the exit cell is a room, so a carving that opens every room opens it |

## Left out

- Console input and output are left out. This covers the prompts, `cin`,
  printing the maze and frames as characters, `clearScreen`, the "no
  solution" message, and `printTime`. The two numbers read become
  parameters of `Program.Run`.
- The 200 ms pauses between frames and the `high_resolution_clock`
  timing are left out; neither affects any result.
- `random_device`, `mt19937` and `std::shuffle` are not modelled. Each
  shuffle is an arbitrary permutation supplied by the caller, so no claim
  depends on the generator's distribution.
- The frame's `int` grid holds the character codes `'E'` and `'S'` next to
  0, 1 and 2. Here these are the constructors `Entrance` and `Exit`; the
  numeric codes are not modelled.
- Generator.Generate: requires both dimensions to be at least 3. The
  program calls it only with coerced odd sizes. At width or height 2 it
  would open only (1, 1), which then lies on the border, so the "border
  stays Wall" clause would not hold. At size 1 the program writes outside
  the grid; at -1 and below, building the grid throws.
- Program.Run: requires both numbers read to be at least 2. A read of 0 or
  1 is coerced to 1, and the program then writes to row or column 1 of a
  grid that lacks it. A read of -1 or below is coerced to a negative odd
  size, and building the grid from that size throws before any cell is
  written.
- Solver.Solve: requires a rectangular grid of at least 2 × 2, because the
  search touches (1, 1) unconditionally.

=== FILE: dimensions.dfy ===
/** The arithmetic half of reading the maze size: an even row or column
    count is bumped up by one so that the grid has odd dimensions. */
module Dimensions {

  /** Largest value of the program's 32-bit `int`. */
  const IntMax: int := 0x7fff_ffff

  /** The dimension the program goes on with after reading n.
      The program tests `n % 2 == 0` with C++'s truncating remainder; its
      zero test agrees with Dafny's Euclidean one on every integer, negative
      ones included, so the test is written as is.
      The result is the least odd integer not below n: odd, at most one
      more than n, and equal to n exactly when n is already odd. */
  function MakeOdd(n: int): (r: int)
    ensures r % 2 == 1
    ensures n <= r <= n + 1
    ensures r == n <==> n % 2 == 1
  {
    if n % 2 == 0 then n + 1 else n
  }

  /** No odd integer lies between n and MakeOdd(n). */
  lemma MakeOddIsLeast(n: int, m: int)
    requires n <= m && m % 2 == 1
    ensures MakeOdd(n) <= m
  {
  }

  /** Coercing twice is coercing once. */
  lemma MakeOddIdempotent(n: int)
    ensures MakeOdd(MakeOdd(n)) == MakeOdd(n)
  {
  }

  /** `height++` on an even 32-bit value never overflows: the largest
      32-bit int is odd, so an even value is at most IntMax - 1. */
  lemma MakeOddFitsInt(n: int)
    requires -IntMax - 1 <= n <= IntMax
    ensures -IntMax - 1 <= MakeOdd(n) <= IntMax
  {
  }
}

=== FILE: frame.dfy ===
/** The grid-building half of drawing one step of the solution: a copy of
    the maze with the first cells of a path marked, then the entrance and
    exit markers laid over it. Printing the frame as characters, the rest
    of the program's step-drawing routine, is not modelled. */
module Frame {
  import opened Grid

  /** Every cell of path[..n] lies in g. */
  predicate PrefixInGrid(g: Grid, path: seq<Pos>, n: int) {
    0 <= n <= |path| && forall i :: 0 <= i < n ==> InGrid(g, path[i])
  }

  /** g with path[0], ..., path[n - 1] overwritten by Solution, one cell at a
      time in path order: every cell of that prefix reads Solution and every
      other cell is untouched. */
  function MarkPrefix(g: Grid, path: seq<Pos>, n: nat): (r: Grid)
    requires PrefixInGrid(g, path, n)
    ensures SameShape(r, g)
    ensures forall q :: InGrid(g, q) ==> At(r, q) == if q in path[..n] then Solution else At(g, q)
    decreases n
  {
    if n == 0 then g
    else
      var prev := MarkPrefix(g, path, n - 1);
      assert path[..n] == path[..n - 1] + [path[n - 1]];
      Update(prev, path[n - 1], Solution)
  }

  /** The frame for `step`: path[0..step] marked Solution, then (1, 1) set to
      Entrance, then the exit set to Exit. Where the two markers share a cell
      (a 3 x 3 maze) the later write, Exit, wins. Every other cell keeps the
      maze's own state; the maze itself is a value and stays as it was. */
  function SolutionFrame(maze: Grid, path: seq<Pos>, step: int): (f: Grid)
    requires IsMaze(maze)
    requires 0 <= step < |path| && PrefixInGrid(maze, path, step + 1)
    ensures IsGrid(f, |maze[0]|, |maze|)
    ensures forall q :: InGrid(maze, q) ==>
              At(f, q) == (if q == ExitOf(maze) then Exit
                           else if q == Start then Entrance
                           else if q in path[..step + 1] then Solution
                           else At(maze, q))
  {
    var marked := MarkPrefix(maze, path, step + 1);
    var withEntrance := Update(marked, Start, Entrance);
    Update(withEntrance, ExitOf(maze), Exit)
  }

  /** Consecutive frames of the final replay differ in at most one cell,
      the newly reached path[step + 1], and there the later frame shows
      Solution unless a marker covers it. */
  lemma ReplayAddsOneCell(maze: Grid, path: seq<Pos>, step: int, q: Pos)
    requires IsMaze(maze)
    requires 0 <= step && step + 1 < |path| && PrefixInGrid(maze, path, step + 2)
    requires InGrid(maze, q)
    ensures At(SolutionFrame(maze, path, step + 1), q) != At(SolutionFrame(maze, path, step), q) ==> q == path[step + 1]
    ensures q == path[step + 1] && q != Start && q != ExitOf(maze) ==> At(SolutionFrame(maze, path, step + 1), q) == Solution
  {
    assert path[..step + 2] == path[..step + 1] + [path[step + 1]];
  }

  /** A cell the frame shows as Solution is one of the marked path cells. */
  lemma SolutionCellsOnPath(maze: Grid, path: seq<Pos>, step: int, q: Pos)
    requires IsMaze(maze)
    requires 0 <= step < |path| && PrefixInGrid(maze, path, step + 1)
    requires InGrid(maze, q) && At(maze, q) != Solution
    ensures At(SolutionFrame(maze, path, step), q) == Solution <==> q in path[..step + 1] && q != Start && q != ExitOf(maze)
  {
  }
}

=== FILE: generator.dfy ===
/** Randomized depth-first maze carving with an explicit stack.
    Cells with both coordinates odd are rooms; a cell with one odd and one
    even coordinate is a corridor, which joins the two rooms on either side
    of it. Carving opens a room two cells away from the current one,
    together with the corridor between them. The only randomness is the
    order in which the four directions are tried at each pop. Here it is a
    parameter `shuffle`, and every result holds for every choice of it. */
module Generator {
  import opened Grid

  /** An order in which to try the four directions: a permutation of 0..3. */
  predicate IsDirOrder(s: seq<int>) {
    && |s| == 4
    && (forall i :: 0 <= i < 4 ==> 0 <= s[i] < 4)
    && (forall d :: 0 <= d < 4 ==> d in s)
  }

  type DirOrder = s: seq<int> | IsDirOrder(s) witness [0, 1, 2, 3]

  /** Strictly inside the border: the bounds test the carver applies to a
      candidate room. */
  predicate Interior(w: int, h: int, p: Pos) {
    0 < p.x < w - 1 && 0 < p.y < h - 1
  }

  predicate OnBorder(w: int, h: int, p: Pos) {
    InBounds(w, h, p) && !Interior(w, h, p)
  }

  predicate IsRoom(w: int, h: int, p: Pos) {
    Interior(w, h, p) && p.x % 2 == 1 && p.y % 2 == 1
  }

  predicate IsCorridor(w: int, h: int, p: Pos) {
    Interior(w, h, p) && (p.x % 2 == 1) != (p.y % 2 == 1)
  }

  /** Both coordinates even: never a room and never a corridor. */
  predicate IsPillar(p: Pos) {
    p.x % 2 == 0 && p.y % 2 == 0
  }

  /** The cell two steps away in direction d. */
  function Jump(p: Pos, d: int): Pos
    requires 0 <= d < 4
  {
    Pos(p.x + 2 * DX(d), p.y + 2 * DY(d))
  }

  /** a and b are two cells apart along a row or a column. */
  predicate IsJump(a: Pos, b: Pos) {
    || (a.x == b.x && (a.y - b.y == 2 || b.y - a.y == 2))
    || (a.y == b.y && (a.x - b.x == 2 || b.x - a.x == 2))
  }

  /** The cell halfway between a and b when IsJump(a, b). */
  function MidOf(a: Pos, b: Pos): Pos {
    if a.x == b.x then Pos(a.x, if a.y < b.y then a.y + 1 else a.y - 1)
    else Pos(if a.x < b.x then a.x + 1 else a.x - 1, a.y)
  }

  /** The two rooms a corridor lies between. */
  function FlankA(c: Pos): Pos {
    if c.x % 2 == 0 then Pos(c.x - 1, c.y) else Pos(c.x, c.y - 1)
  }

  function FlankB(c: Pos): Pos {
    if c.x % 2 == 0 then Pos(c.x + 1, c.y) else Pos(c.x, c.y + 1)
  }

  /** The interior cells with both coordinates odd. */
  ghost function AllRooms(w: int, h: int): set<Pos> {
    set x, y | 0 < x < w - 1 && 0 < y < h - 1 && x % 2 == 1 && y % 2 == 1 :: Pos(x, y)
  }

  ghost function OpenRooms(w: int, h: int, g: Grid): set<Pos> {
    set x, y | 0 < x < w - 1 && 0 < y < h - 1 && IsRoom(w, h, Pos(x, y)) && IsOpen(g, Pos(x, y)) :: Pos(x, y)
  }

  ghost function OpenCorridors(w: int, h: int, g: Grid): set<Pos> {
    set x, y | 0 < x < w - 1 && 0 < y < h - 1 && IsCorridor(w, h, Pos(x, y)) && IsOpen(g, Pos(x, y)) :: Pos(x, y)
  }

  /** Every room two steps away from r inside the border is open: the state
      after r has been popped and all four directions tried. */
  ghost predicate Closed(w: int, h: int, g: Grid, r: Pos) {
    forall d :: 0 <= d < 4 && Interior(w, h, Jump(r, d)) ==> IsOpen(g, Jump(r, d))
  }

  /** The open cells of g form a tree, listed in push order: pushes[0] is
      (1, 1), and each later room pushes[i] was carved from its parent
      pushes[par[i]], pushed earlier (par[i] < i), two cells away and joined
      to it by an open corridor. Every open cell that is not a room is such
      a corridor, the one leading to pushes[link[c]]. So the open corridors
      are exactly the tree's edges, and the carved passages hold no cycle. */
  ghost predicate SpanningTree(w: int, h: int, g: Grid, pushes: seq<Pos>, par: seq<int>, link: map<Pos, int>) {
    && |pushes| > 0 && pushes[0] == Start && |par| == |pushes|
    && (forall i :: 0 <= i < |pushes| ==> IsRoom(w, h, pushes[i]) && IsOpen(g, pushes[i]))
    && (forall i {:trigger par[i]} :: 0 < i < |par| ==>
          && 0 <= par[i] < i
          && IsJump(pushes[par[i]], pushes[i])
          && IsOpen(g, MidOf(pushes[par[i]], pushes[i]))
          && MidOf(pushes[par[i]], pushes[i]) in link
          && link[MidOf(pushes[par[i]], pushes[i])] == i)
    && (forall c :: IsOpen(g, c) && !IsRoom(w, h, c) ==>
          && IsCorridor(w, h, c)
          && c in link && 0 < link[c] < |pushes|
          && c == MidOf(pushes[par[link[c]]], pushes[link[c]]))
  }

  /** Ghost record of the carving so far: the open rooms, in push order and
      as a set; for each pushed room the index of the room it was carved
      from; the open corridors; and for each corridor the index of the room
      it leads to. */
  datatype Carving = Carving(rooms: set<Pos>, pushes: seq<Pos>, par: seq<int>, corridors: set<Pos>, link: map<Pos, int>)

  /** The grid holds only Wall and Path, and its open cells are exactly the
      recorded rooms and corridors. */
  ghost predicate Matches(w: int, h: int, g: Grid, t: Carving) {
    && IsGrid(g, w, h)
    && (forall p :: InBounds(w, h, p) ==> At(g, p) == Path || At(g, p) == Wall)
    && (forall p :: InBounds(w, h, p) ==> (At(g, p) == Path <==> p in t.rooms || p in t.corridors))
  }

  /** Each room is pushed once, (1, 1) first; one more room than corridors. */
  ghost predicate Pushed(w: int, h: int, t: Carving) {
    && |t.pushes| > 0 && t.pushes[0] == Start
    && (forall i :: 0 <= i < |t.pushes| ==> IsRoom(w, h, t.pushes[i]) && t.pushes[i] in t.rooms)
    && (forall r :: r in t.rooms ==> r in t.pushes)
    && (forall i, j :: 0 <= i < j < |t.pushes| ==> t.pushes[i] != t.pushes[j])
    && |t.rooms| == |t.pushes| == |t.corridors| + 1
  }

  /** The parent links and corridor links of the tree. */
  ghost predicate Links(w: int, h: int, t: Carving) {
    && |t.par| == |t.pushes|
    && (forall i {:trigger t.par[i]} :: 0 < i < |t.par| ==>
          && 0 <= t.par[i] < i
          && IsJump(t.pushes[t.par[i]], t.pushes[i])
          && MidOf(t.pushes[t.par[i]], t.pushes[i]) in t.corridors
          && MidOf(t.pushes[t.par[i]], t.pushes[i]) in t.link
          && t.link[MidOf(t.pushes[t.par[i]], t.pushes[i])] == i)
    && (forall c :: c in t.corridors ==>
          && IsCorridor(w, h, c)
          && c in t.link && 0 < t.link[c] < |t.pushes|
          && c == MidOf(t.pushes[t.par[t.link[c]]], t.pushes[t.link[c]]))
  }

  /** Every stacked cell is a recorded room, and every recorded room is on
      the stack, in `pending` (being visited), or closed. */
  ghost predicate StackFrontier(w: int, h: int, g: Grid, stack: seq<Pos>, t: Carving, pending: set<Pos>) {
    && (forall s :: s in stack ==> s in t.rooms)
    && (forall r :: r in t.rooms ==> r in stack || r in pending || Closed(w, h, g, r))
  }

  /** Loop invariant of the carver. */
  ghost predicate Valid(w: int, h: int, g: Grid, stack: seq<Pos>, t: Carving, pending: set<Pos>) {
    && Matches(w, h, g, t)
    && Pushed(w, h, t)
    && Links(w, h, t)
    && StackFrontier(w, h, g, stack, t, pending)
  }

  /** The record after carving room n from pushes[k] through corridor m. */
  ghost function Carve(t: Carving, k: int, n: Pos, m: Pos): Carving {
    Carving(t.rooms + {n}, t.pushes + [n], t.par + [k], t.corridors + {m}, t.link[m := |t.pushes|])
  }

  /** The corridor between a room and a room two cells away lies between
      exactly those two rooms. */
  lemma MidFlanks(w: int, h: int, a: Pos, d: int)
    requires IsRoom(w, h, a) && 0 <= d < 4 && Interior(w, h, Jump(a, d))
    ensures IsRoom(w, h, Jump(a, d))
    ensures IsJump(a, Jump(a, d))
    ensures MidOf(a, Jump(a, d)) == Neighbor(a, d)
    ensures IsCorridor(w, h, Neighbor(a, d))
  {
    Parity(a.x);
    Parity(a.y);
    if d == 0 {
      assert Jump(a, d) == Pos(a.x, a.y + 2) && Neighbor(a, d) == Pos(a.x, a.y + 1);
    } else if d == 1 {
      assert Jump(a, d) == Pos(a.x + 2, a.y) && Neighbor(a, d) == Pos(a.x + 1, a.y);
    } else if d == 2 {
      assert Jump(a, d) == Pos(a.x, a.y - 2) && Neighbor(a, d) == Pos(a.x, a.y - 1);
    } else {
      assert Jump(a, d) == Pos(a.x - 2, a.y) && Neighbor(a, d) == Pos(a.x - 1, a.y);
    }
  }

  /** Moving two keeps the parity of a coordinate, moving one flips it. */
  lemma Parity(n: int)
    ensures (n + 2) % 2 == n % 2 && (n - 2) % 2 == n % 2
    ensures (n + 1) % 2 != n % 2 && (n - 1) % 2 != n % 2
  {
  }

  /** The corridor between two rooms two cells apart is flanked by exactly
      those two rooms. */
  lemma MidFlankPair(w: int, h: int, a: Pos, b: Pos)
    requires IsRoom(w, h, a) && IsRoom(w, h, b) && IsJump(a, b)
    ensures {FlankA(MidOf(a, b)), FlankB(MidOf(a, b))} == {a, b}
  {
    Parity(a.x);
    Parity(a.y);
  }

  /** Both rooms flanking a recorded corridor are recorded. */
  lemma CorridorFlanks(w: int, h: int, t: Carving)
    requires Pushed(w, h, t) && Links(w, h, t)
    ensures forall c :: c in t.corridors ==> FlankA(c) in t.rooms && FlankB(c) in t.rooms
  {
    forall c | c in t.corridors
      ensures FlankA(c) in t.rooms && FlankB(c) in t.rooms
    {
      var i := t.link[c];
      var a, b := t.pushes[t.par[i]], t.pushes[i];
      assert IsRoom(w, h, a) && a in t.rooms;
      assert IsRoom(w, h, b) && b in t.rooms;
      MidFlankPair(w, h, a, b);
    }
  }

  /** A Wall room two cells from a recorded room is not recorded, and
      neither is the corridor between them, which is therefore Wall too. */
  lemma FreshCarve(w: int, h: int, g: Grid, t: Carving, cur: Pos, d: int)
    requires Matches(w, h, g, t) && Pushed(w, h, t) && Links(w, h, t)
    requires cur in t.rooms && 0 <= d < 4
    requires Interior(w, h, Jump(cur, d)) && At(g, Jump(cur, d)) == Wall
    ensures Jump(cur, d) !in t.rooms && Jump(cur, d) !in t.corridors
    ensures Neighbor(cur, d) !in t.rooms && Neighbor(cur, d) !in t.corridors
    ensures At(g, Neighbor(cur, d)) == Wall
  {
    var n := Jump(cur, d);
    var m := Neighbor(cur, d);
    assert IsRoom(w, h, cur);
    MidFlanks(w, h, cur, d);
    MidFlankPair(w, h, cur, n);
    assert InBounds(w, h, n);
    CorridorFlanks(w, h, t);
    assert InBounds(w, h, m);
  }

  /** Opening the two fresh cells keeps the grid and the record in step. */
  lemma CarveMatches(w: int, h: int, g: Grid, t: Carving, k: int, n: Pos, m: Pos)
    requires Matches(w, h, g, t)
    requires InBounds(w, h, n) && InBounds(w, h, m)
    ensures Matches(w, h, Update(Update(g, n, Path), m, Path), Carve(t, k, n, m))
  {
  }

  /** Pushing a fresh room keeps every room pushed once. */
  lemma CarvePushed(w: int, h: int, t: Carving, k: int, n: Pos, m: Pos)
    requires Pushed(w, h, t)
    requires IsRoom(w, h, n) && n !in t.rooms && m !in t.corridors
    ensures Pushed(w, h, Carve(t, k, n, m))
  {
    var t' := Carve(t, k, n, m);
    forall r | r in t'.rooms
      ensures r in t'.pushes
    {
      if r != n {
        assert r in t.pushes;
        var i :| 0 <= i < |t.pushes| && t.pushes[i] == r;
        assert t'.pushes[i] == r;
      } else {
        assert t'.pushes[|t.pushes|] == n;
      }
    }
    assert |t'.rooms| == |t.rooms| + 1;
    assert |t'.corridors| == |t.corridors| + 1;
  }

  /** Hanging the fresh room n = Jump(pushes[k], d) off pushes[k] through
      the fresh corridor between them keeps the links of a tree. */
  lemma CarveLinks(w: int, h: int, t: Carving, k: int, d: int)
    requires Pushed(w, h, t) && Links(w, h, t)
    requires 0 <= k < |t.pushes| && 0 <= d < 4 && Interior(w, h, Jump(t.pushes[k], d))
    requires Neighbor(t.pushes[k], d) !in t.corridors
    ensures Links(w, h, Carve(t, k, Jump(t.pushes[k], d), Neighbor(t.pushes[k], d)))
  {
    var cur := t.pushes[k];
    var n := Jump(cur, d);
    var m := Neighbor(cur, d);
    MidFlanks(w, h, cur, d);
    ParentLinksGrow(t, k, n, m);
    CorridorLinksGrow(w, h, t, k, n, m);
  }

  lemma ParentLinksGrow(t: Carving, k: int, n: Pos, m: Pos)
    requires |t.par| == |t.pushes| && 0 <= k < |t.pushes|
    requires forall i {:trigger t.par[i]} :: 0 < i < |t.par| ==>
               && 0 <= t.par[i] < i
               && IsJump(t.pushes[t.par[i]], t.pushes[i])
               && MidOf(t.pushes[t.par[i]], t.pushes[i]) in t.corridors
               && MidOf(t.pushes[t.par[i]], t.pushes[i]) in t.link
               && t.link[MidOf(t.pushes[t.par[i]], t.pushes[i])] == i
    requires IsJump(t.pushes[k], n) && MidOf(t.pushes[k], n) == m && m !in t.corridors
    ensures var t' := Carve(t, k, n, m);
      forall i {:trigger t'.par[i]} :: 0 < i < |t'.par| ==>
        && 0 <= t'.par[i] < i
        && IsJump(t'.pushes[t'.par[i]], t'.pushes[i])
        && MidOf(t'.pushes[t'.par[i]], t'.pushes[i]) in t'.corridors
        && MidOf(t'.pushes[t'.par[i]], t'.pushes[i]) in t'.link
        && t'.link[MidOf(t'.pushes[t'.par[i]], t'.pushes[i])] == i
  {
    var t' := Carve(t, k, n, m);
    forall i | 0 < i < |t'.par|
      ensures && 0 <= t'.par[i] < i
              && IsJump(t'.pushes[t'.par[i]], t'.pushes[i])
              && MidOf(t'.pushes[t'.par[i]], t'.pushes[i]) in t'.corridors
              && MidOf(t'.pushes[t'.par[i]], t'.pushes[i]) in t'.link
              && t'.link[MidOf(t'.pushes[t'.par[i]], t'.pushes[i])] == i
    {
      if i < |t.par| {
        assert t'.par[i] == t.par[i];
        assert t'.pushes[t'.par[i]] == t.pushes[t.par[i]];
        assert t'.pushes[i] == t.pushes[i];
        assert MidOf(t.pushes[t.par[i]], t.pushes[i]) != m;
      } else {
        assert t'.par[i] == k && t'.pushes[k] == t.pushes[k] && t'.pushes[i] == n;
      }
    }
  }

  lemma CorridorLinksGrow(w: int, h: int, t: Carving, k: int, n: Pos, m: Pos)
    requires |t.par| == |t.pushes| && 0 <= k < |t.pushes|
    requires forall i :: 0 < i < |t.par| ==> 0 <= t.par[i] < i
    requires forall c :: c in t.corridors ==>
               && IsCorridor(w, h, c)
               && c in t.link && 0 < t.link[c] < |t.pushes|
               && c == MidOf(t.pushes[t.par[t.link[c]]], t.pushes[t.link[c]])
    requires IsCorridor(w, h, m) && MidOf(t.pushes[k], n) == m && m !in t.corridors
    ensures var t' := Carve(t, k, n, m);
      forall c :: c in t'.corridors ==>
        && IsCorridor(w, h, c)
        && c in t'.link && 0 < t'.link[c] < |t'.pushes|
        && c == MidOf(t'.pushes[t'.par[t'.link[c]]], t'.pushes[t'.link[c]])
  {
    var t' := Carve(t, k, n, m);
    forall c | c in t'.corridors
      ensures && IsCorridor(w, h, c)
              && c in t'.link && 0 < t'.link[c] < |t'.pushes|
              && c == MidOf(t'.pushes[t'.par[t'.link[c]]], t'.pushes[t'.link[c]])
    {
      if c != m {
        var i := t.link[c];
        assert t'.link[c] == i;
        assert t'.par[i] == t.par[i];
        assert t'.pushes[t'.par[i]] == t.pushes[t.par[i]];
        assert t'.pushes[i] == t.pushes[i];
      } else {
        assert t'.link[m] == |t.pushes|;
        assert t'.par[|t.pushes|] == k;
        assert t'.pushes[k] == t.pushes[k];
        assert t'.pushes[|t.pushes|] == n;
      }
    }
  }

  /** A closed room stays closed when cells only ever open. */
  lemma ClosedGrows(w: int, h: int, g: Grid, g': Grid, r: Pos)
    requires Closed(w, h, g, r)
    requires forall p :: IsOpen(g, p) ==> IsOpen(g', p)
    ensures Closed(w, h, g', r)
  {
  }

  /** Pushing the new room keeps every recorded room accounted for. */
  lemma CarveFrontier(w: int, h: int, g: Grid, g': Grid, stack: seq<Pos>, t: Carving, pending: set<Pos>, k: int, n: Pos, m: Pos)
    requires StackFrontier(w, h, g, stack, t, pending)
    requires forall p :: IsOpen(g, p) ==> IsOpen(g', p)
    ensures StackFrontier(w, h, g', stack + [n], Carve(t, k, n, m), pending)
  {
    var t' := Carve(t, k, n, m);
    forall r | r in t'.rooms
      ensures r in stack + [n] || r in pending || Closed(w, h, g', r)
    {
      if r != n && r !in stack && r !in pending {
        ClosedGrows(w, h, g, g', r);
      }
    }
  }

  /** Opening two cells opens no less than before. */
  lemma UpdatesOnlyOpen(g: Grid, n: Pos, m: Pos)
    requires InGrid(g, n) && InGrid(g, m)
    ensures forall p :: IsOpen(g, p) ==> IsOpen(Update(Update(g, n, Path), m, Path), p)
  {
  }

  /** Opening two cells changes those two and no other. */
  lemma UpdatesOnlyTwo(g: Grid, n: Pos, m: Pos)
    requires InGrid(g, n) && InGrid(g, m)
    ensures var g' := Update(Update(g, n, Path), m, Path);
      && SameShape(g', g)
      && (forall p :: InGrid(g, p) ==> At(g', p) == if p == n || p == m then Path else At(g, p))
      && (forall p :: IsOpen(g, p) ==> IsOpen(g', p))
  {
  }

  /** A room is one of all the rooms. */
  lemma RoomInAll(w: int, h: int, n: Pos)
    requires IsRoom(w, h, n)
    ensures n in AllRooms(w, h)
  {
    assert n == Pos(n.x, n.y);
  }

  /** One carving step keeps the invariant: room n = Jump(cur, d), a Wall
      cell inside the border, and the corridor between cur and n, also
      Wall, are opened and n is pushed. Exactly one room and one corridor
      change from Wall to Path, and no cell changes back. */
  lemma CarveKeepsValid(w: int, h: int, g: Grid, stack: seq<Pos>, t: Carving, pending: set<Pos>, k: int, d: int)
    requires Valid(w, h, g, stack, t, pending)
    requires 0 <= k < |t.pushes| && 0 <= d < 4
    requires Interior(w, h, Jump(t.pushes[k], d)) && At(g, Jump(t.pushes[k], d)) == Wall
    ensures Jump(t.pushes[k], d) !in t.rooms && Jump(t.pushes[k], d) in AllRooms(w, h)
    ensures InGrid(g, Neighbor(t.pushes[k], d))
    ensures var n := Jump(t.pushes[k], d);
            var m := Neighbor(t.pushes[k], d);
      Valid(w, h, Update(Update(g, n, Path), m, Path), stack + [n], Carve(t, k, n, m), pending)
  {
    var cur := t.pushes[k];
    var n := Jump(cur, d);
    var m := Neighbor(cur, d);
    MidFlanks(w, h, cur, d);
    FreshCarve(w, h, g, t, cur, d);
    RoomInAll(w, h, n);
    var g' := Update(Update(g, n, Path), m, Path);
    UpdatesOnlyOpen(g, n, m);
    CarveMatches(w, h, g, t, k, n, m);
    CarvePushed(w, h, t, k, n, m);
    CarveLinks(w, h, t, k, d);
    CarveFrontier(w, h, g, g', stack, t, pending, k, n, m);
  }

  /** Every room is open once every open room is closed: walk left or up
      two cells at a time back to (1, 1). */
  lemma {:induction false} AllRoomsOpen(w: int, h: int, g: Grid, p: Pos)
    requires IsOpen(g, Start)
    requires forall r :: IsOpen(g, r) && IsRoom(w, h, r) ==> Closed(w, h, g, r)
    requires IsRoom(w, h, p)
    ensures IsOpen(g, p)
    decreases p.x + p.y
  {
    if p.x > 1 {
      var q := Pos(p.x - 2, p.y);
      AllRoomsOpen(w, h, g, q);
      assert Jump(q, 1) == p;
    } else if p.y > 1 {
      var q := Pos(p.x, p.y - 2);
      AllRoomsOpen(w, h, g, q);
      assert Jump(q, 0) == p;
    } else {
      assert p == Start;
    }
  }

  /** The final grid and record make a spanning tree of the open cells. */
  lemma TreeOfRecord(w: int, h: int, g: Grid, t: Carving)
    requires Matches(w, h, g, t) && Pushed(w, h, t) && Links(w, h, t)
    ensures SpanningTree(w, h, g, t.pushes, t.par, t.link)
  {
    forall i | 0 <= i < |t.pushes|
      ensures IsOpen(g, t.pushes[i])
    {
      assert InBounds(w, h, t.pushes[i]);
    }
    forall i | 0 < i < |t.par|
      ensures IsOpen(g, MidOf(t.pushes[t.par[i]], t.pushes[i]))
    {
      var c := MidOf(t.pushes[t.par[i]], t.pushes[i]);
      assert IsCorridor(w, h, c);
    }
    forall c | IsOpen(g, c) && !IsRoom(w, h, c)
      ensures c in t.corridors
    {
    }
  }

  /** A route from (1, 1) to pushes[i], following parent links. */
  ghost function RouteTo(w: int, h: int, g: Grid, pushes: seq<Pos>, par: seq<int>, link: map<Pos, int>, i: int): (route: seq<Pos>)
    requires SpanningTree(w, h, g, pushes, par, link)
    requires 0 <= i < |pushes|
    ensures IsRoute(g, route, pushes[i])
    decreases i
  {
    if i == 0 then [Start]
    else
      var a := pushes[par[i]];
      var toParent := RouteTo(w, h, g, pushes, par, link, par[i]);
      var m := MidOf(a, pushes[i]);
      RouteExtend(g, toParent, a, m);
      RouteExtend(g, toParent + [m], m, pushes[i]);
      toParent + [m] + [pushes[i]]
  }

  /** In a spanning tree every open cell is reachable from (1, 1) through
      open cells: a room along its parent links, a corridor through the room
      it leads to. */
  lemma Connected(w: int, h: int, g: Grid, pushes: seq<Pos>, par: seq<int>, link: map<Pos, int>)
    requires SpanningTree(w, h, g, pushes, par, link)
    requires forall p :: IsRoom(w, h, p) && IsOpen(g, p) ==> p in pushes
    ensures forall p :: IsOpen(g, p) ==> Reachable(g, p)
  {
    forall p | IsOpen(g, p)
      ensures Reachable(g, p)
    {
      if IsRoom(w, h, p) {
        var i :| 0 <= i < |pushes| && pushes[i] == p;
        var route := RouteTo(w, h, g, pushes, par, link, i);
      } else {
        var i := link[p];
        var toRoom := RouteTo(w, h, g, pushes, par, link, par[i]);
        RouteExtend(g, toRoom, pushes[par[i]], p);
        var route := toRoom + [p];
      }
    }
  }

  /** The grid's open rooms and open corridors are the recorded ones. */
  lemma CountsMatch(w: int, h: int, g: Grid, t: Carving)
    requires Matches(w, h, g, t) && Pushed(w, h, t) && Links(w, h, t)
    ensures OpenRooms(w, h, g) == t.rooms
    ensures OpenCorridors(w, h, g) == t.corridors
  {
    RoomsMatch(w, h, g, t);
    CorridorsMatch(w, h, g, t);
  }

  lemma RoomsMatch(w: int, h: int, g: Grid, t: Carving)
    requires Matches(w, h, g, t) && Pushed(w, h, t) && Links(w, h, t)
    ensures OpenRooms(w, h, g) == t.rooms
  {
    forall p | p in t.rooms
      ensures p in OpenRooms(w, h, g)
    {
      var i :| 0 <= i < |t.pushes| && t.pushes[i] == p;
      assert IsRoom(w, h, Pos(p.x, p.y));
    }
    forall p | p in OpenRooms(w, h, g)
      ensures p in t.rooms
    {
    }
  }

  lemma CorridorsMatch(w: int, h: int, g: Grid, t: Carving)
    requires Matches(w, h, g, t) && Pushed(w, h, t) && Links(w, h, t)
    ensures OpenCorridors(w, h, g) == t.corridors
  {
    forall p | p in t.corridors
      ensures p in OpenCorridors(w, h, g)
    {
      assert IsCorridor(w, h, Pos(p.x, p.y));
    }
    forall p | p in OpenCorridors(w, h, g)
      ensures p in t.corridors
    {
    }
  }

  /** Popping the top of the stack leaves it pending. */
  lemma PopFrontier(w: int, h: int, g: Grid, stack: seq<Pos>, t: Carving)
    requires StackFrontier(w, h, g, stack, t, {}) && |stack| > 0
    ensures StackFrontier(w, h, g, stack[..|stack| - 1], t, {stack[|stack| - 1]})
  {
    var top := stack[|stack| - 1];
    forall r | r in stack && r != top
      ensures r in stack[..|stack| - 1]
    {
      var i :| 0 <= i < |stack| && stack[i] == r;
      assert stack[..|stack| - 1][i] == r;
    }
  }

  /** The pending room is closed once all four directions are tried. */
  lemma CloseFrontier(w: int, h: int, g: Grid, stack: seq<Pos>, t: Carving, cur: Pos)
    requires StackFrontier(w, h, g, stack, t, {cur})
    requires Closed(w, h, g, cur)
    ensures StackFrontier(w, h, g, stack, t, {})
  {
  }

  /** One pass of the carver's inner loop, direction d from the popped room
      cur: when the room two cells away lies strictly inside the border and
      is still Wall, it and the corridor between turn Path and the room is
      pushed; otherwise grid and stack stay as they were. */
  method TryDirection(width: int, height: int, maze: Grid, stack: seq<Pos>, cur: Pos, d: int)
    returns (maze': Grid, stack': seq<Pos>)
    requires IsGrid(maze, width, height) && InBounds(width, height, cur) && 0 <= d < 4
    ensures Opens(width, height, maze, cur, d) ==>
              maze' == Update(Update(maze, Jump(cur, d), Path), Neighbor(cur, d), Path) && stack' == stack + [Jump(cur, d)]
    ensures !Opens(width, height, maze, cur, d) ==> maze' == maze && stack' == stack
  {
    maze', stack' := maze, stack;
    var dx := 2 * DX(d);
    var dy := 2 * DY(d);
    var nx := cur.x + dx;
    var ny := cur.y + dy;
    if 0 < nx && nx < width - 1 && 0 < ny && ny < height - 1 && maze[ny][nx] == Wall {
      var n := Pos(nx, ny);
      var m := Pos(cur.x + dx / 2, cur.y + dy / 2);
      assert n == Jump(cur, d) && m == Neighbor(cur, d);
      maze' := Update(Update(maze, n, Path), m, Path);
      stack' := stack + [n];
    }
  }

  /** The carver's test on direction d from cur: the room two cells away
      lies strictly inside the border and is still Wall. */
  predicate Opens(w: int, h: int, g: Grid, cur: Pos, d: int)
    requires IsGrid(g, w, h) && 0 <= d < 4
  {
    Interior(w, h, Jump(cur, d)) && At(g, Jump(cur, d)) == Wall
  }

  /** The ghost side of one pass: the record follows the grid, the stack
      grows by exactly the rooms carved, no open cell closes, and the room
      in direction d is open afterwards if it lies inside the border. */
  lemma TryKeepsValid(w: int, h: int, g: Grid, stack: seq<Pos>, t: Carving, cur: Pos, d: int)
      returns (t': Carving)
    requires Valid(w, h, g, stack, t, {cur})
    requires cur in t.rooms && t.rooms <= AllRooms(w, h) && 0 <= d < 4
    ensures var opens := Opens(w, h, g, cur, d);
      var g' := if opens then Update(Update(g, Jump(cur, d), Path), Neighbor(cur, d), Path) else g;
      var stack' := if opens then stack + [Jump(cur, d)] else stack;
      && Valid(w, h, g', stack', t', {cur})
      && t.rooms <= t'.rooms <= AllRooms(w, h)
      && |stack'| - |stack| == |t'.rooms| - |t.rooms|
      && (Interior(w, h, Jump(cur, d)) ==> IsOpen(g', Jump(cur, d)))
      && (forall p :: IsOpen(g, p) ==> IsOpen(g', p))
      && t'.pushes == (if opens then t.pushes + [Jump(cur, d)] else t.pushes)
  {
    if Opens(w, h, g, cur, d) {
      var k :| 0 <= k < |t.pushes| && t.pushes[k] == cur;
      CarveKeepsValid(w, h, g, stack, t, {cur}, k, d);
      UpdatesOnlyTwo(g, Jump(cur, d), Neighbor(cur, d));
      t' := Carve(t, k, Jump(cur, d), Neighbor(cur, d));
    } else {
      t' := t;
      assert Interior(w, h, Jump(cur, d)) ==> InBounds(w, h, Jump(cur, d));
    }
  }

  /** Every direction in ds that leads to a room inside the border leads to
      an open one. */
  ghost predicate TriedDirs(w: int, h: int, g: Grid, cur: Pos, ds: seq<int>) {
    forall d :: d in ds && 0 <= d < 4 && Interior(w, h, Jump(cur, d)) ==> IsOpen(g, Jump(cur, d))
  }

  lemma TriedGrows(w: int, h: int, g: Grid, g': Grid, cur: Pos, order: seq<int>, i: int)
    requires 0 <= i < |order| && TriedDirs(w, h, g, cur, order[..i])
    requires forall p :: IsOpen(g, p) ==> IsOpen(g', p)
    requires 0 <= order[i] < 4 && (Interior(w, h, Jump(cur, order[i])) ==> IsOpen(g', Jump(cur, order[i])))
    ensures TriedDirs(w, h, g', cur, order[..i + 1])
  {
    assert order[..i + 1] == order[..i] + [order[i]];
  }

  /** Having tried all four directions, the room is closed. */
  lemma TriedAll(w: int, h: int, g: Grid, cur: Pos, order: DirOrder)
    requires TriedDirs(w, h, g, cur, order[..4])
    ensures Closed(w, h, g, cur)
  {
    assert order[..4] == order;
  }

  /** The stack gains, above its old entries, exactly the rooms the record
      logged since: kept when a step pushes the same room onto both, or
      onto neither. */
  lemma PushLogged(stack: seq<Pos>, log: seq<Pos>, stacked: seq<Pos>, logged: seq<Pos>,
                   stack': seq<Pos>, logged': seq<Pos>, grew: bool, n: Pos)
    requires |log| <= |logged| && logged[..|log|] == log && stacked == stack + logged[|log|..]
    requires grew ==> stack' == stacked + [n] && logged' == logged + [n]
    requires !grew ==> stack' == stacked && logged' == logged
    ensures |log| <= |logged'| && logged'[..|log|] == log && stack' == stack + logged'[|log|..]
  {
    if grew {
      assert logged'[|log|..] == logged[|log|..] + [n];
      assert logged'[..|log|] == logged[..|log|];
    }
  }

  /** The inner loop of the carver for the popped room cur: the four
      directions in the drawn order, each tried once. Afterwards every room
      two cells away from cur inside the border is open, so cur itself is
      closed; the stack grew by exactly the rooms carved, each pushed once
      on top of the entries already there; and no open cell was closed
      again. */
  method ExploreRoom(width: int, height: int, maze: Grid, stack: seq<Pos>, ghost t: Carving, cur: Pos, order: DirOrder)
    returns (maze': Grid, stack': seq<Pos>, ghost t': Carving)
    requires Valid(width, height, maze, stack, t, {cur})
    requires cur in t.rooms && t.rooms <= AllRooms(width, height)
    ensures Valid(width, height, maze', stack', t', {})
    ensures Closed(width, height, maze', cur)
    ensures t.rooms <= t'.rooms <= AllRooms(width, height)
    ensures |stack'| - |stack| == |t'.rooms| - |t.rooms| == |t'.pushes| - |t.pushes|
    ensures stack <= stack' && stack' == stack + t'.pushes[|t.pushes|..]
    ensures forall p :: IsOpen(maze, p) ==> IsOpen(maze', p)
  {
    maze', stack', t' := maze, stack, t;
    for i := 0 to 4
      invariant Valid(width, height, maze', stack', t', {cur})
      invariant |t.pushes| <= |t'.pushes| && t'.pushes[..|t.pushes|] == t.pushes
      invariant stack' == stack + t'.pushes[|t.pushes|..]
      invariant t.rooms <= t'.rooms <= AllRooms(width, height)
      invariant |stack'| - |stack| == |t'.rooms| - |t.rooms|
      invariant forall p :: IsOpen(maze, p) ==> IsOpen(maze', p)
      invariant TriedDirs(width, height, maze', cur, order[..i])
    {
      ghost var before, stacked, logged := maze', stack', t'.pushes;
      ghost var opens := Opens(width, height, maze', cur, order[i]);
      t' := TryKeepsValid(width, height, maze', stack', t', cur, order[i]);
      maze', stack' := TryDirection(width, height, maze', stack', cur, order[i]);
      TriedGrows(width, height, before, maze', cur, order, i);
      PushLogged(stack, t.pushes, stacked, logged, stack', t'.pushes, opens, Jump(cur, order[i]));
    }
    TriedAll(width, height, maze', cur, order);
    CloseFrontier(width, height, maze', stack', t', cur);
  }

  /** The state before the first pop: an all-Wall grid with (1, 1) opened,
      (1, 1) alone on the stack and alone in the record. */
  lemma InitValid(w: int, h: int, g: Grid, t: Carving)
    requires w >= 3 && h >= 3
    requires g == Update(Filled(w, h, Wall), Start, Path)
    requires t == Carving({Start}, [Start], [0], {}, map[])
    ensures Valid(w, h, g, [Start], t, {})
    ensures t.rooms <= AllRooms(w, h)
  {
    assert Start == Pos(1, 1);
  }

  /** One turn of the carver's outer loop: pop the top room and explore it
      in the drawn order. The popped room ends closed; the stack lost the
      popped room and gained one entry per push on top of the entries below
      it; no open cell was closed;
      and either new rooms were recorded or the stack shrank, which is why
      the loop ends. */
  method VisitTop(width: int, height: int, maze: Grid, stack: seq<Pos>, ghost t: Carving, order: DirOrder)
    returns (maze': Grid, stack': seq<Pos>, ghost t': Carving)
    requires Valid(width, height, maze, stack, t, {}) && |stack| > 0
    requires t.rooms <= AllRooms(width, height)
    ensures Valid(width, height, maze', stack', t', {})
    ensures Closed(width, height, maze', stack[|stack| - 1])
    ensures t'.rooms <= AllRooms(width, height)
    ensures |stack'| + 1 - |stack| == |t'.pushes| - |t.pushes|
    ensures |t.pushes| <= |t'.pushes| && stack' == stack[..|stack| - 1] + t'.pushes[|t.pushes|..]
    ensures |stack'| >= |stack| - 1 && stack'[..|stack| - 1] == stack[..|stack| - 1]
    ensures forall p :: IsOpen(maze, p) ==> IsOpen(maze', p)
    ensures || |AllRooms(width, height) - t'.rooms| < |AllRooms(width, height) - t.rooms|
            || (t'.rooms == t.rooms && |stack'| < |stack|)
  {
    var cur := stack[|stack| - 1];
    PopFrontier(width, height, maze, stack, t);
    maze', stack', t' := ExploreRoom(width, height, maze, stack[..|stack| - 1], t, cur, order);
    KeptBelow(stack, stack');
    if t'.rooms != t.rooms {
      ShrinkingRest(AllRooms(width, height), t.rooms, t'.rooms);
    }
  }

  /** A stack that extends the one left by a pop keeps every entry below
      the popped one. */
  lemma KeptBelow(stack: seq<Pos>, stack': seq<Pos>)
    requires |stack| > 0 && stack[..|stack| - 1] <= stack'
    ensures |stack'| >= |stack| - 1 && stack'[..|stack| - 1] == stack[..|stack| - 1]
  {
  }

  /** The carver. `shuffle(k)` is the direction order drawn at the k-th pop.
      Starting from an all-Wall grid it opens (1, 1), then pops rooms off the
      stack and, for each direction in the drawn order, opens a Wall room
      two cells away strictly inside the border together with the corridor
      between, pushing the new room.
      Result: only Wall and Path; the border and every pillar stay Wall;
      every room is open (so the exit is, for odd dimensions); every open
      cell is reachable from (1, 1); the open cells form a tree with one
      fewer corridor than rooms; the ghost `pushes` lists each room exactly
      once; and `pops`, the number of turns of the outer loop, equals the
      number of pushes, hence the number of rooms. */
  method Generate(width: int, height: int, shuffle: nat -> DirOrder)
    returns (maze: Grid, pops: nat, ghost pushes: seq<Pos>, ghost par: seq<int>, ghost link: map<Pos, int>)
    requires width >= 3 && height >= 3
    ensures IsGrid(maze, width, height)
    ensures forall p :: InBounds(width, height, p) ==> At(maze, p) == Wall || At(maze, p) == Path
    ensures forall p :: OnBorder(width, height, p) ==> At(maze, p) == Wall
    ensures forall p :: InBounds(width, height, p) && IsPillar(p) ==> At(maze, p) == Wall
    ensures forall p :: IsRoom(width, height, p) ==> At(maze, p) == Path
    ensures forall p :: IsOpen(maze, p) ==> Reachable(maze, p)
    ensures SpanningTree(width, height, maze, pushes, par, link)
    ensures |OpenRooms(width, height, maze)| == |OpenCorridors(width, height, maze)| + 1
    ensures forall p :: p in pushes <==> IsRoom(width, height, p)
    ensures forall i, j :: 0 <= i < j < |pushes| ==> pushes[i] != pushes[j]
    ensures pops == |pushes| == |AllRooms(width, height)|
  {
    maze := Filled(width, height, Wall);
    maze := Update(maze, Start, Path);
    var stack := [Start];
    ghost var t := Carving({Start}, [Start], [0], {}, map[]);
    InitValid(width, height, maze, t);
    pops := 0;

    while |stack| > 0
      invariant Valid(width, height, maze, stack, t, {})
      invariant t.rooms <= AllRooms(width, height)
      invariant pops + |stack| == |t.pushes|
      decreases |AllRooms(width, height) - t.rooms|, |stack|
    {
      var order := shuffle(pops);
      pops := pops + 1;
      maze, stack, t := VisitTop(width, height, maze, stack, t, order);
    }

    FinishCells(width, height, maze, t);
    FinishTree(width, height, maze, t);
    pushes, par, link := t.pushes, t.par, t.link;
  }

  /** What the empty stack leaves behind, cell by cell: only Wall and
      Path, the border and the pillars Wall, every room Path. */
  lemma FinishCells(w: int, h: int, g: Grid, t: Carving)
    requires w >= 3 && h >= 3
    requires Valid(w, h, g, [], t, {})
    ensures forall p :: InBounds(w, h, p) ==> At(g, p) == Wall || At(g, p) == Path
    ensures forall p :: OnBorder(w, h, p) ==> At(g, p) == Wall
    ensures forall p :: InBounds(w, h, p) && IsPillar(p) ==> At(g, p) == Wall
    ensures forall p :: IsRoom(w, h, p) ==> At(g, p) == Path
  {
    assert IsOpen(g, Start) by {
      assert InBounds(w, h, Start);
    }
    forall r | IsOpen(g, r) && IsRoom(w, h, r)
      ensures Closed(w, h, g, r)
    {
      assert InBounds(w, h, r);
    }
    forall p | IsRoom(w, h, p)
      ensures At(g, p) == Path
    {
      AllRoomsOpen(w, h, g, p);
    }
  }

  /** What the empty stack leaves behind as a whole: the record is a
      spanning tree of the open cells, pushed once per room, so every open
      cell is reachable and there is one fewer corridor than rooms. */
  lemma FinishTree(w: int, h: int, g: Grid, t: Carving)
    requires w >= 3 && h >= 3
    requires Valid(w, h, g, [], t, {})
    requires forall p :: IsRoom(w, h, p) ==> At(g, p) == Path
    ensures forall p :: IsOpen(g, p) ==> Reachable(g, p)
    ensures SpanningTree(w, h, g, t.pushes, t.par, t.link)
    ensures |OpenRooms(w, h, g)| == |OpenCorridors(w, h, g)| + 1
    ensures forall p :: p in t.pushes <==> IsRoom(w, h, p)
    ensures forall i, j :: 0 <= i < j < |t.pushes| ==> t.pushes[i] != t.pushes[j]
    ensures |t.pushes| == |AllRooms(w, h)|
  {
    TreeOfRecord(w, h, g, t);
    forall p | IsRoom(w, h, p)
      ensures p in t.pushes
    {
      assert IsOpen(g, p);
    }
    Connected(w, h, g, t.pushes, t.par, t.link);
    CountsMatch(w, h, g, t);
    RecordIsAllRooms(w, h, t);
  }

  /** A record that pushed every room once holds as many pushes as there
      are rooms. */
  lemma RecordIsAllRooms(w: int, h: int, t: Carving)
    requires Pushed(w, h, t)
    requires forall p :: IsRoom(w, h, p) ==> p in t.pushes
    ensures |t.pushes| == |AllRooms(w, h)|
  {
    forall p | p in AllRooms(w, h)
      ensures p in t.rooms
    {
      assert IsRoom(w, h, p);
    }
    forall p | p in t.rooms
      ensures p in AllRooms(w, h)
    {
      RoomInAll(w, h, p);
    }
    assert t.rooms == AllRooms(w, h);
  }
}

=== FILE: grid.dfy ===
/** Cells, positions, rectangular grids and routes: the data shared by the
    maze generator, the breadth-first solver and the frame builder. */
module Grid {

  /** The state of one cell. The program keeps WALL = 1, PATH = 0 and
      SOLUTION = 2 in an int grid and, in animation frames only, the character
      codes 'E' and 'S'; each of the five is a constructor here. */
  datatype Cell = Wall | Path | Solution | Entrance | Exit

  /** Column x, row y; a grid is indexed g[y][x]. */
  datatype Pos = Pos(x: int, y: int)

  type Grid = seq<seq<Cell>>

  /** Carving starts here, the solver starts here, and frames mark it 'E'. */
  const Start: Pos := Pos(1, 1)

  /** g has `height` rows of `width` cells each. */
  predicate IsGrid(g: Grid, width: int, height: int) {
    |g| == height && forall y :: 0 <= y < |g| ==> |g[y]| == width
  }

  /** What the solver and the frame builder accept: a rectangle whose
      width is the length of row 0, at least 2 x 2 because both touch (1, 1). */
  predicate IsMaze(g: Grid) {
    |g| >= 2 && |g[0]| >= 2 && IsGrid(g, |g[0]|, |g|)
  }

  /** The cell the solver searches for and frames mark 'S'. */
  function ExitOf(g: Grid): Pos
    requires |g| > 0
  {
    Pos(|g[0]| - 2, |g| - 2)
  }

  predicate InBounds(width: int, height: int, p: Pos) {
    0 <= p.x < width && 0 <= p.y < height
  }

  predicate InGrid(g: Grid, p: Pos) {
    0 <= p.y < |g| && 0 <= p.x < |g[p.y]|
  }

  function At(g: Grid, p: Pos): Cell
    requires InGrid(g, p)
  {
    g[p.y][p.x]
  }

  predicate IsOpen(g: Grid, p: Pos) {
    InGrid(g, p) && At(g, p) == Path
  }

  /** Same number of rows, and row by row the same length. */
  predicate SameShape(a: Grid, b: Grid) {
    |a| == |b| && forall y :: 0 <= y < |a| ==> |a[y]| == |b[y]|
  }

  /** The grid with the one cell p replaced by c. */
  function Update(g: Grid, p: Pos, c: Cell): (r: Grid)
    requires InGrid(g, p)
    ensures SameShape(r, g)
    ensures forall q :: InGrid(g, q) ==> At(r, q) == if q == p then c else At(g, q)
  {
    g[p.y := g[p.y][p.x := c]]
  }

  /** A width x height grid holding c everywhere. */
  function Filled(width: nat, height: nat, c: Cell): (g: Grid)
    ensures IsGrid(g, width, height)
    ensures forall p :: InBounds(width, height, p) ==> At(g, p) == c
  {
    seq(height, _ => seq(width, _ => c))
  }

  /** The four directions in the order both direction tables list them:
      0 = down (+y), 1 = right (+x), 2 = up (-y), 3 = left (-x). */
  function DX(d: int): int
    requires 0 <= d < 4
  {
    if d == 1 then 1 else if d == 3 then -1 else 0
  }

  function DY(d: int): int
    requires 0 <= d < 4
  {
    if d == 0 then 1 else if d == 2 then -1 else 0
  }

  function Neighbor(p: Pos, d: int): (n: Pos)
    requires 0 <= d < 4
    ensures Adjacent(p, n)
  {
    Pos(p.x + DX(d), p.y + DY(d))
  }

  /** 4-adjacency. */
  predicate Adjacent(a: Pos, b: Pos) {
    || (a.x == b.x && (a.y - b.y == 1 || b.y - a.y == 1))
    || (a.y == b.y && (a.x - b.x == 1 || b.x - a.x == 1))
  }

  /** Every adjacent cell is one of the four neighbours. */
  function DirTo(a: Pos, b: Pos): (d: int)
    requires Adjacent(a, b)
    ensures 0 <= d < 4 && Neighbor(a, d) == b
  {
    if b.y == a.y + 1 then 0
    else if b.x == a.x + 1 then 1
    else if b.y == a.y - 1 then 2
    else 3
  }

  /** A route in g to `target`: it starts at (1, 1), every later cell is an
      open cell of g, and consecutive cells are 4-adjacent. This is the shape
      of every path the solver builds; the first cell is not itself required
      to be open, since the solver never tests it. */
  predicate IsRoute(g: Grid, route: seq<Pos>, target: Pos) {
    && |route| > 0
    && route[0] == Start
    && route[|route| - 1] == target
    && (forall k :: 0 < k < |route| ==> IsOpen(g, route[k]))
    && (forall k :: 0 < k < |route| ==> Adjacent(route[k - 1], route[k]))
  }

  ghost predicate Reachable(g: Grid, p: Pos) {
    exists route :: IsRoute(g, route, p)
  }

  /** Every cell of a route lies in the grid. */
  lemma RouteInGrid(g: Grid, route: seq<Pos>, target: Pos)
    requires IsMaze(g) && IsRoute(g, route, target)
    ensures forall k :: 0 <= k < |route| ==> InGrid(g, route[k])
  {
  }

  /** Dropping the last cell of a route leaves a route to the cell before it. */
  lemma RoutePrefix(g: Grid, route: seq<Pos>, target: Pos)
    requires IsRoute(g, route, target) && |route| > 1
    ensures IsRoute(g, route[..|route| - 1], route[|route| - 2])
  {
  }

  /** A route extended by an adjacent open cell is a route to that cell. */
  lemma RouteExtend(g: Grid, route: seq<Pos>, target: Pos, next: Pos)
    requires IsRoute(g, route, target)
    requires Adjacent(target, next) && IsOpen(g, next)
    ensures IsRoute(g, route + [next], next)
  {
    var r := route + [next];
    forall k | 0 <= k < |route|
      ensures r[k] == route[k]
    {
    }
  }

  function Abs(n: int): nat {
    if n < 0 then -n else n
  }

  /** A route cannot be shorter than the Manhattan distance it covers:
      |route| - 1 steps move at least that far from (1, 1). */
  lemma {:induction false} RouteLength(g: Grid, route: seq<Pos>, target: Pos)
    requires IsRoute(g, route, target)
    ensures |route| - 1 >= Abs(target.x - Start.x) + Abs(target.y - Start.y)
    decreases |route|
  {
    if |route| > 1 {
      RoutePrefix(g, route, target);
      RouteLength(g, route[..|route| - 1], route[|route| - 2]);
      assert Adjacent(route[|route| - 2], target);
    }
  }

  /** Adding elements of u to a subset of u leaves fewer elements of u out:
      the measure both search loops decrease. */
  lemma ShrinkingRest<T>(u: set<T>, a: set<T>, b: set<T>)
    requires a <= b && b <= u && a != b
    ensures |u - b| < |u - a|
  {
    var x :| x in b && x !in a;
    var rest := (u - a) - {x};
    assert u - b <= rest;
    assert |rest| == |u - a| - 1;
    SubsetSize(u - b, rest);
  }

  lemma SubsetSize<T>(a: set<T>, b: set<T>)
    requires a <= b
    ensures |a| <= |b|
  {
    assert b == a + (b - a);
  }
}

=== FILE: program.dfy ===
/** The program's pipeline: read a size, make both dimensions odd, carve a
    maze of that size, and search it from (1, 1) to the exit. Reading the
    two numbers, printing, clearing the screen, pausing between frames and
    timing the two phases are left to the caller; the two numbers read and
    the direction orders the shuffle draws are parameters. */
module Program {
  import opened Grid
  import opened Dimensions
  import opened Generator
  import opened Frame
  import opened Solver

  /** Carving from (1, 1) needs a second row and column, so the numbers read
      must be at least 2; they are then at least 3 once made odd.
      With odd dimensions the exit cell is a room, hence carved, hence
      reachable: the search always finds it, along a shortest route, and the
      last frame shows that whole route. That route covers the Manhattan
      distance from (1, 1) to the exit, one cell per step. Before it, the
      search admitted every cell a route no longer than it reaches, each
      along a shortest route, and nothing more than one cell longer. */
  method Run(rows: int, columns: int, shuffle: nat -> DirOrder)
    returns (maze: Grid, outcome: Outcome, discovered: seq<seq<Pos>>, frames: seq<Grid>)
    requires rows >= 2 && columns >= 2
    ensures IsGrid(maze, MakeOdd(columns), MakeOdd(rows))
    ensures IsMaze(maze) && At(maze, ExitOf(maze)) == Path
    ensures outcome.Found?
    ensures IsRoute(maze, outcome.path, ExitOf(maze))
    ensures forall r :: IsRoute(maze, r, ExitOf(maze)) ==> |outcome.path| <= |r|
    ensures |outcome.path| >= MakeOdd(columns) + MakeOdd(rows) - 5
    ensures ShortestAdmissions(maze, discovered) && AdmittedWithin(maze, discovered, |outcome.path|)
    ensures AdmittedBelow(discovered, |outcome.path| + 1)
    ensures |frames| == |discovered| + |outcome.path| && |outcome.path| > 0
    ensures PrefixInGrid(maze, outcome.path, |outcome.path|)
    ensures frames[|frames| - 1] == SolutionFrame(maze, outcome.path, |outcome.path| - 1)
  {
    var height := MakeOdd(rows);
    var width := MakeOdd(columns);
    maze := GenerateOdd(width, height, shuffle);
    outcome, discovered, frames := Solve(maze);
    RouteLength(maze, outcome.path, ExitOf(maze));
    LastFrame(maze, outcome.path, discovered, frames);
  }

  /** The replay ends with the frame of the whole path. */
  lemma LastFrame(maze: Grid, path: seq<Pos>, discovered: seq<seq<Pos>>, frames: seq<Grid>)
    requires IsMaze(maze) && |path| > 0 && PrefixInGrid(maze, path, |path|)
    requires |frames| == |discovered| + |path|
    requires forall s :: 0 <= s < |path| ==> frames[|discovered| + s] == SolutionFrame(maze, path, s)
    ensures frames[|frames| - 1] == SolutionFrame(maze, path, |path| - 1)
  {
    assert frames[|discovered| + (|path| - 1)] == SolutionFrame(maze, path, |path| - 1);
  }

  /** Generation at odd dimensions: the exit cell (width - 2, height - 2)
      has odd coordinates and lies inside the border, so it is a room; every
      room is carved, and every carved cell is reached from (1, 1). */
  method GenerateOdd(width: int, height: int, shuffle: nat -> DirOrder) returns (maze: Grid)
    requires width >= 3 && height >= 3 && width % 2 == 1 && height % 2 == 1
    ensures IsGrid(maze, width, height) && IsMaze(maze)
    ensures At(maze, ExitOf(maze)) == Path && Reachable(maze, ExitOf(maze))
  {
    var pops;
    ghost var pushes, par, link;
    maze, pops, pushes, par, link := Generate(width, height, shuffle);
    ExitCarved(width, height, maze);
  }

  /** At odd dimensions the exit cell is a room, so a carving that opens
      every room and reaches every open cell opens and reaches the exit. */
  lemma ExitCarved(width: int, height: int, maze: Grid)
    requires width >= 3 && height >= 3 && width % 2 == 1 && height % 2 == 1
    requires IsGrid(maze, width, height)
    requires forall p :: IsRoom(width, height, p) ==> At(maze, p) == Path
    requires forall p :: IsOpen(maze, p) ==> Reachable(maze, p)
    ensures IsMaze(maze) && At(maze, ExitOf(maze)) == Path && Reachable(maze, ExitOf(maze))
  {
    assert IsRoom(width, height, ExitOf(maze));
  }
}

=== FILE: solver.dfy ===
/** Breadth-first search from (1, 1) to the exit cell (width - 2, height - 2).
    Every queue entry carries the whole path that reached it. A neighbour is
    admitted when it lies in the grid, is not yet visited and is PATH; it is
    marked visited as it is queued, so no cell is queued twice. Each
    admission draws one frame, and reaching the exit replays the path one
    prefix per frame. The maze is a value, so the search cannot change it. */
module Solver {
  import opened Grid
  import opened Frame

  /** A queue entry: a cell and the path that reached it, (1, 1) first. */
  datatype Node = Node(pos: Pos, path: seq<Pos>)

  /** The search either reaches the exit along a path or empties the queue. */
  datatype Outcome = Found(path: seq<Pos>) | NotFound

  function Last(s: seq<Pos>): Pos
    requires |s| > 0
  {
    s[|s| - 1]
  }

  /** Every cell of g. */
  ghost function Cells(g: Grid): set<Pos> {
    set y, x | 0 <= y < |g| && 0 <= x < |g[y]| :: Pos(x, y)
  }

  /** The cells waiting in the queue. */
  ghost function Positions(q: seq<Node>): set<Pos> {
    set i | 0 <= i < |q| :: q[i].pos
  }

  /** The solver's test on a neighbour: inside the grid (on a rectangular
      grid, 0 <= x < width and 0 <= y < height), not yet visited, and PATH. */
  predicate Admits(g: Grid, visited: set<Pos>, n: Pos) {
    IsOpen(g, n) && n !in visited
  }

  /** No route to v has fewer than len cells. */
  ghost predicate Shortest(g: Grid, v: Pos, len: int) {
    forall r :: IsRoute(g, r, v) ==> |r| >= len
  }

  /** Every open neighbour of v has been visited. */
  ghost predicate Expanded(g: Grid, visited: set<Pos>, v: Pos) {
    forall d :: 0 <= d < 4 && IsOpen(g, Neighbor(v, d)) ==> Neighbor(v, d) in visited
  }

  /** (1, 1) is visited, and each visited cell lies in the grid with a
      recorded length that no route to it undercuts. */
  ghost predicate Known(g: Grid, visited: set<Pos>, dist: map<Pos, int>) {
    && Start in visited
    && (forall v :: v in visited ==> InGrid(g, v) && v in dist && Shortest(g, v, dist[v]))
  }

  /** Each queued path is a route to its cell, whose recorded length it is. */
  ghost predicate Queued(g: Grid, q: seq<Node>, visited: set<Pos>, dist: map<Pos, int>) {
    forall i :: 0 <= i < |q| ==>
      && IsRoute(g, q[i].path, q[i].pos)
      && q[i].pos in visited && q[i].pos in dist && dist[q[i].pos] == |q[i].path|
  }

  /** Queued paths are no shorter than lo, at most lo + 1, and in order. */
  ghost predicate Layered(q: seq<Node>, lo: int) {
    forall i, j :: 0 <= i <= j < |q| ==> lo <= |q[i].path| <= |q[j].path| <= lo + 1
  }

  /** The first `tried` neighbours of v are visited where open. */
  ghost predicate Tried(g: Grid, visited: set<Pos>, v: Pos, tried: int) {
    forall d :: 0 <= d < tried && d < 4 ==> (IsOpen(g, Neighbor(v, d)) ==> Neighbor(v, d) in visited)
  }

  /** Every visited cell is expanded, queued, or being expanded; the exit,
      once visited, is still queued. */
  ghost predicate Frontier(g: Grid, q: seq<Node>, visited: set<Pos>, pending: set<Pos>)
    requires IsMaze(g)
  {
    && (forall v :: v in visited ==> Expanded(g, visited, v) || v in Positions(q) || v in pending)
    && (ExitOf(g) in visited ==> ExitOf(g) in Positions(q))
  }

  /** Each admission so far is a route of two or more cells to a visited
      cell other than (1, 1), of that cell's recorded length, and at most
      one longer than the last path taken off the queue. */
  ghost predicate Admitted(g: Grid, visited: set<Pos>, dist: map<Pos, int>, disc: seq<seq<Pos>>, level: int) {
    forall k :: 0 <= k < |disc| ==>
      && |disc[k]| >= 2 && IsRoute(g, disc[k], Last(disc[k]))
      && Last(disc[k]) in visited && Last(disc[k]) != Start
      && Last(disc[k]) in dist && dist[Last(disc[k])] == |disc[k]|
      && |disc[k]| <= level + 1
  }

  /** Admissions end at distinct cells, and none is longer than a later one. */
  ghost predicate InOrder(disc: seq<seq<Pos>>)
  {
    forall k, k' :: 0 <= k < k' < |disc| && |disc[k]| > 0 && |disc[k']| > 0 ==>
      Last(disc[k]) != Last(disc[k']) && |disc[k]| <= |disc[k']|
  }

  /** Frame k shows admission k whole. */
  ghost predicate Drawn(g: Grid, disc: seq<seq<Pos>>, frames: seq<Grid>)
    requires IsMaze(g)
  {
    && |frames| == |disc|
    && (forall k :: 0 <= k < |disc| ==>
          && |disc[k]| > 0 && PrefixInGrid(g, disc[k], |disc[k]|)
          && frames[k] == SolutionFrame(g, disc[k], |disc[k]| - 1))
  }

  /** Every visited cell other than (1, 1) was admitted along some path. */
  ghost predicate Covered(visited: set<Pos>, disc: seq<seq<Pos>>) {
    forall v :: v in visited && v != Start ==> exists k :: 0 <= k < |disc| && |disc[k]| > 0 && Last(disc[k]) == v
  }

  /** The admissions so far, in order, and one frame for each. */
  ghost predicate Discovered(g: Grid, visited: set<Pos>, dist: map<Pos, int>, disc: seq<seq<Pos>>, frames: seq<Grid>, level: int)
    requires IsMaze(g)
  {
    Admitted(g, visited, dist, disc, level) && InOrder(disc) && Drawn(g, disc, frames) && Covered(visited, disc)
  }

  /** Each admission is a route of two or more cells to a cell other than
      (1, 1), and no route to that cell is shorter. */
  ghost predicate ShortestAdmissions(g: Grid, disc: seq<seq<Pos>>) {
    forall k :: 0 <= k < |disc| ==>
      && |disc[k]| >= 2 && IsRoute(g, disc[k], Last(disc[k]))
      && Last(disc[k]) != Start
      && Shortest(g, Last(disc[k]), |disc[k]|)
  }

  /** Every cell other than (1, 1) that a route of at most `len` cells
      reaches is the end of some admission. */
  ghost predicate AdmittedWithin(g: Grid, disc: seq<seq<Pos>>, len: int) {
    forall r, c :: IsRoute(g, r, c) && c != Start && |r| <= len ==>
      exists k :: 0 <= k < |disc| && |disc[k]| > 0 && Last(disc[k]) == c
  }

  /** Every cell other than (1, 1) that any route reaches is the end of some
      admission. */
  ghost predicate AdmittedAll(g: Grid, disc: seq<seq<Pos>>) {
    forall r, c :: IsRoute(g, r, c) && c != Start ==>
      exists k :: 0 <= k < |disc| && |disc[k]| > 0 && Last(disc[k]) == c
  }

  /** No admission has more than len cells. */
  ghost predicate AdmittedBelow(disc: seq<seq<Pos>>, len: int) {
    forall k :: 0 <= k < |disc| ==> |disc[k]| <= len
  }

  /** The loop invariant of the search. */
  ghost predicate Search(g: Grid, q: seq<Node>, visited: set<Pos>, dist: map<Pos, int>, pending: set<Pos>, level: int)
    requires IsMaze(g)
  {
    && Known(g, visited, dist)
    && Queued(g, q, visited, dist)
    && Layered(q, level)
    && Frontier(g, q, visited, pending)
  }

  /** The breadth-first argument. Suppose every visited cell that is not
      expanded has a recorded length of at least lo. A route to a cell
      that is not visited leaves the visited region at some step, from a
      visited cell that is therefore not expanded; the route up to that
      cell already has lo cells or more. So the route has more than lo. */
  lemma {:induction false} UnvisitedFar(g: Grid, visited: set<Pos>, dist: map<Pos, int>, lo: int, r: seq<Pos>, c: Pos)
    requires Known(g, visited, dist)
    requires forall v :: v in visited ==> Expanded(g, visited, v) || dist[v] >= lo
    requires IsRoute(g, r, c)
    ensures c in visited || |r| >= lo + 1
    decreases |r|
  {
    if |r| > 1 {
      var prev := r[|r| - 2];
      RoutePrefix(g, r, c);
      if prev !in visited {
        UnvisitedFar(g, visited, dist, lo, r[..|r| - 1], prev);
      } else {
        var d := DirTo(prev, c);
        assert IsOpen(g, Neighbor(prev, d));
        assert IsRoute(g, r[..|r| - 1], prev);
      }
    }
  }

  /** With nothing left unexpanded, every cell a route reaches is visited. */
  lemma AllReachedVisited(g: Grid, visited: set<Pos>, dist: map<Pos, int>, r: seq<Pos>, c: Pos)
    requires Known(g, visited, dist)
    requires forall v :: v in visited ==> Expanded(g, visited, v)
    requires IsRoute(g, r, c)
    ensures c in visited
  {
    UnvisitedFar(g, visited, dist, |r|, r, c);
  }

  lemma PositionsPop(q: seq<Node>)
    requires |q| > 0
    ensures Positions(q) == {q[0].pos} + Positions(q[1..])
  {
    forall v | v in Positions(q)
      ensures v == q[0].pos || v in Positions(q[1..])
    {
      var i :| 0 <= i < |q| && q[i].pos == v;
      if i > 0 {
        assert q[1..][i - 1].pos == v;
      }
    }
  }

  lemma PositionsPush(q: seq<Node>, n: Node)
    ensures Positions(q + [n]) == Positions(q) + {n.pos}
  {
    assert (q + [n])[|q|] == n;
    forall v | v in Positions(q)
      ensures v in Positions(q + [n])
    {
      var i :| 0 <= i < |q| && q[i].pos == v;
      assert (q + [n])[i] == q[i];
    }
  }

  /** A queued cell's recorded length is at least the queue's lower bound. */
  lemma QueuedFar(g: Grid, q: seq<Node>, visited: set<Pos>, dist: map<Pos, int>, lo: int, v: Pos)
    requires Queued(g, q, visited, dist) && Layered(q, lo)
    requires v in Positions(q)
    ensures v in dist && dist[v] >= lo
  {
    var i :| 0 <= i < |q| && q[i].pos == v;
  }

  /** Cells are visited only inside the grid. */
  lemma VisitedInCells(g: Grid, visited: set<Pos>, dist: map<Pos, int>)
    requires Known(g, visited, dist)
    ensures visited <= Cells(g)
  {
    forall v | v in visited
      ensures v in Cells(g)
    {
      assert InGrid(g, v) && v == Pos(v.x, v.y);
    }
  }

  /** The state before the first pop: (1, 1) alone, visited and queued with
      the one-cell path, nothing admitted yet. */
  lemma InitSearch(g: Grid)
    requires IsMaze(g)
    ensures Search(g, [Node(Start, [Start])], {Start}, map[Start := 1], {}, 1)
    ensures Discovered(g, {Start}, map[Start := 1], [], [], 1)
  {
    var q := [Node(Start, [Start])];
    assert q[0].pos in Positions(q);
    assert InGrid(g, Start);
  }

  /** Taking the front node off the queue: it becomes the one being
      expanded, its length the new level, and the rest of the queue lies
      between that level and one more. */
  lemma PopKeeps(g: Grid, q: seq<Node>, visited: set<Pos>, dist: map<Pos, int>, level: int,
                 disc: seq<seq<Pos>>, frames: seq<Grid>)
    requires IsMaze(g) && |q| > 0
    requires Search(g, q, visited, dist, {}, level)
    requires Discovered(g, visited, dist, disc, frames, level)
    ensures level <= |q[0].path| <= level + 1
    ensures q[0].pos in visited && IsRoute(g, q[0].path, q[0].pos)
    ensures q[0].pos in dist && dist[q[0].pos] == |q[0].path|
    ensures q[0].pos != ExitOf(g) ==> Search(g, q[1..], visited, dist, {q[0].pos}, |q[0].path|)
    ensures Discovered(g, visited, dist, disc, frames, |q[0].path|)
  {
    PositionsPop(q);
    var rest := q[1..];
    forall i, j | 0 <= i <= j < |rest|
      ensures |q[0].path| <= |rest[i].path| <= |rest[j].path| <= |q[0].path| + 1
    {
      assert rest[i] == q[i + 1] && rest[j] == q[j + 1];
    }
    forall i | 0 <= i < |rest|
      ensures IsRoute(g, rest[i].path, rest[i].pos)
      ensures rest[i].pos in visited && rest[i].pos in dist && dist[rest[i].pos] == |rest[i].path|
    {
      assert rest[i] == q[i + 1];
    }
  }

  /** Once all four neighbours are tried, the node is expanded and no
      longer pending. */
  lemma ExpandedDone(g: Grid, q: seq<Node>, visited: set<Pos>, dist: map<Pos, int>, level: int, cur: Pos)
    requires IsMaze(g)
    requires Search(g, q, visited, dist, {cur}, level)
    requires Tried(g, visited, cur, 4)
    ensures Search(g, q, visited, dist, {}, level)
    ensures Expanded(g, visited, cur)
  {
    assert Expanded(g, visited, cur);
  }

  /** One pass of the inner loop, neighbour d of node: when it is admitted
      it is marked visited, queued with the path extended by it, recorded,
      and its frame is drawn; otherwise nothing changes. */
  method TryNeighbor(maze: Grid, node: Node, q: seq<Node>, visited: set<Pos>, disc: seq<seq<Pos>>, frames: seq<Grid>, d: int)
    returns (q': seq<Node>, visited': set<Pos>, disc': seq<seq<Pos>>, frames': seq<Grid>)
    requires IsMaze(maze) && 0 <= d < 4
    requires IsRoute(maze, node.path, node.pos)
    ensures Admits(maze, visited, Neighbor(node.pos, d)) ==>
              var n := Neighbor(node.pos, d);
              && q' == q + [Node(n, node.path + [n])]
              && visited' == visited + {n}
              && disc' == disc + [node.path + [n]]
              && PrefixInGrid(maze, node.path + [n], |node.path| + 1)
              && frames' == frames + [SolutionFrame(maze, node.path + [n], |node.path|)]
    ensures !Admits(maze, visited, Neighbor(node.pos, d)) ==>
              q' == q && visited' == visited && disc' == disc && frames' == frames
  {
    q', visited', disc', frames' := q, visited, disc, frames;
    var n := Neighbor(node.pos, d);
    if Admits(maze, visited, n) {
      visited' := visited + {n};
      var newPath := node.path + [n];
      ExtendInGrid(maze, node.path, node.pos, n);
      q' := q + [Node(n, newPath)];
      disc' := disc + [newPath];
      var step := |newPath| - 1;
      assert step == |node.path|;
      frames' := frames + [SolutionFrame(maze, newPath, step)];
    }
  }

  /** A route extended by one cell of the grid lies in the grid. */
  lemma ExtendInGrid(g: Grid, path: seq<Pos>, target: Pos, n: Pos)
    requires IsMaze(g) && IsRoute(g, path, target) && InGrid(g, n)
    ensures PrefixInGrid(g, path + [n], |path| + 1)
  {
    RouteInGrid(g, path, target);
    forall i | 0 <= i < |path| + 1
      ensures InGrid(g, (path + [n])[i])
    {
      if i < |path| {
        assert (path + [n])[i] == path[i];
      }
    }
  }

  /** An admitted neighbour n of the node being expanded, at level lo, has
      no route shorter than lo + 1 cells: every visited cell that is not
      expanded is that node or queued, so its recorded length is at least
      lo, and UnvisitedFar applies. */
  lemma AdmittedShortest(g: Grid, q: seq<Node>, visited: set<Pos>, dist: map<Pos, int>, lo: int, cur: Pos, n: Pos)
    requires IsMaze(g)
    requires Search(g, q, visited, dist, {cur}, lo)
    requires cur in dist && dist[cur] == lo
    requires n !in visited
    ensures Shortest(g, n, lo + 1)
  {
    forall v | v in visited && !Expanded(g, visited, v)
      ensures dist[v] >= lo
    {
      if v != cur {
        QueuedFar(g, q, visited, dist, lo, v);
      }
    }
    forall r | IsRoute(g, r, n)
      ensures |r| >= lo + 1
    {
      UnvisitedFar(g, visited, dist, lo, r, n);
    }
  }

  /** Admitting n with the path p keeps the recorded lengths, the queue and
      its layering. */
  lemma AdmitQueue(g: Grid, q: seq<Node>, visited: set<Pos>, dist: map<Pos, int>, lo: int, cur: Pos, n: Pos, p: seq<Pos>)
    requires IsMaze(g)
    requires Search(g, q, visited, dist, {cur}, lo)
    requires n !in visited && IsRoute(g, p, n) && |p| == lo + 1 && Shortest(g, n, lo + 1)
    ensures var visited', dist' := visited + {n}, dist[n := lo + 1];
      && Known(g, visited', dist')
      && Queued(g, q + [Node(n, p)], visited', dist')
      && Layered(q + [Node(n, p)], lo)
  {
    var q' := q + [Node(n, p)];
    assert InGrid(g, n);
    forall i | 0 <= i < |q'|
      ensures q'[i] == if i < |q| then q[i] else Node(n, p)
    {
    }
  }

  /** Admitting n keeps every visited cell expanded, queued or pending. */
  lemma AdmitFrontier(g: Grid, q: seq<Node>, visited: set<Pos>, pending: set<Pos>, n: Pos, p: seq<Pos>)
    requires IsMaze(g)
    requires Frontier(g, q, visited, pending)
    ensures Frontier(g, q + [Node(n, p)], visited + {n}, pending)
  {
    PositionsPush(q, Node(n, p));
    forall v | v in visited && Expanded(g, visited, v)
      ensures Expanded(g, visited + {n}, v)
    {
    }
  }

  /** Admitting n along p, one cell past a node at level lo, records it. */
  lemma AdmitDiscovered(g: Grid, visited: set<Pos>, dist: map<Pos, int>, disc: seq<seq<Pos>>, frames: seq<Grid>, lo: int, n: Pos, p: seq<Pos>)
    requires IsMaze(g)
    requires Discovered(g, visited, dist, disc, frames, lo)
    requires Start in visited && n !in visited && lo >= 1
    requires IsRoute(g, p, n) && |p| == lo + 1 && PrefixInGrid(g, p, |p|)
    ensures Discovered(g, visited + {n}, dist[n := lo + 1], disc + [p], frames + [SolutionFrame(g, p, |p| - 1)], lo)
  {
    AdmitAdmitted(g, visited, dist, disc, lo, n, p);
    AdmitInOrder(disc, visited, lo, n, p);
    AdmitDrawn(g, disc, frames, p);
    AdmitCovered(visited, disc, n, p);
  }

  lemma AdmitCovered(visited: set<Pos>, disc: seq<seq<Pos>>, n: Pos, p: seq<Pos>)
    requires Covered(visited, disc) && |p| > 0 && Last(p) == n
    ensures Covered(visited + {n}, disc + [p])
  {
    var disc' := disc + [p];
    forall v | v in visited + {n} && v != Start
      ensures exists k :: 0 <= k < |disc'| && |disc'[k]| > 0 && Last(disc'[k]) == v
    {
      if v == n {
        assert disc'[|disc|] == p;
      } else {
        var k :| 0 <= k < |disc| && |disc[k]| > 0 && Last(disc[k]) == v;
        assert disc'[k] == disc[k];
      }
    }
  }

  lemma AdmitAdmitted(g: Grid, visited: set<Pos>, dist: map<Pos, int>, disc: seq<seq<Pos>>, lo: int, n: Pos, p: seq<Pos>)
    requires Admitted(g, visited, dist, disc, lo)
    requires Start in visited && n !in visited && lo >= 1
    requires IsRoute(g, p, n) && |p| == lo + 1
    ensures Admitted(g, visited + {n}, dist[n := lo + 1], disc + [p], lo)
  {
    var disc', visited', dist' := disc + [p], visited + {n}, dist[n := lo + 1];
    forall k | 0 <= k < |disc'|
      ensures |disc'[k]| >= 2 && IsRoute(g, disc'[k], Last(disc'[k]))
      ensures Last(disc'[k]) in visited' && Last(disc'[k]) != Start
      ensures Last(disc'[k]) in dist' && dist'[Last(disc'[k])] == |disc'[k]|
      ensures |disc'[k]| <= lo + 1
    {
      if k < |disc| {
        assert disc'[k] == disc[k];
        assert Last(disc[k]) in visited;
      } else {
        assert disc'[k] == p;
      }
    }
  }

  lemma AdmitInOrder(disc: seq<seq<Pos>>, visited: set<Pos>, lo: int, n: Pos, p: seq<Pos>)
    requires InOrder(disc)
    requires forall k :: 0 <= k < |disc| ==> |disc[k]| > 0 && Last(disc[k]) in visited && |disc[k]| <= lo + 1
    requires n !in visited && |p| > 0 && |p| == lo + 1 && Last(p) == n
    ensures InOrder(disc + [p])
  {
    var disc' := disc + [p];
    forall k | 0 <= k < |disc'|
      ensures disc'[k] == if k < |disc| then disc[k] else p
    {
    }
  }

  lemma AdmitDrawn(g: Grid, disc: seq<seq<Pos>>, frames: seq<Grid>, p: seq<Pos>)
    requires IsMaze(g)
    requires Drawn(g, disc, frames)
    requires |p| > 0 && PrefixInGrid(g, p, |p|)
    ensures Drawn(g, disc + [p], frames + [SolutionFrame(g, p, |p| - 1)])
  {
    var disc' := disc + [p];
    var frames' := frames + [SolutionFrame(g, p, |p| - 1)];
    forall k | 0 <= k < |disc'|
      ensures disc'[k] == if k < |disc| then disc[k] else p
      ensures frames'[k] == if k < |disc| then frames[k] else SolutionFrame(g, p, |p| - 1)
    {
    }
  }

  /** The ghost side of one pass of the inner loop, given the state before
      (q, visited, disc, frames) and after (q', visited', disc', frames'):
      the invariant holds again with n recorded at one more than the node's
      length, the queue grew by the cells newly visited, and neighbour d is
      visited if it is open. */
  lemma TryKeeps(g: Grid, cur: Node, d: int, level: int, dist: map<Pos, int>,
                 q: seq<Node>, visited: set<Pos>, disc: seq<seq<Pos>>, frames: seq<Grid>,
                 q': seq<Node>, visited': set<Pos>, disc': seq<seq<Pos>>, frames': seq<Grid>)
      returns (dist': map<Pos, int>)
    requires IsMaze(g) && 0 <= d < 4
    requires Search(g, q, visited, dist, {cur.pos}, level)
    requires Discovered(g, visited, dist, disc, frames, level)
    requires IsRoute(g, cur.path, cur.pos) && cur.pos in dist && dist[cur.pos] == |cur.path| == level
    requires Tried(g, visited, cur.pos, d)
    requires var n := Neighbor(cur.pos, d);
      if Admits(g, visited, n) then
        && q' == q + [Node(n, cur.path + [n])]
        && visited' == visited + {n}
        && disc' == disc + [cur.path + [n]]
        && PrefixInGrid(g, cur.path + [n], |cur.path| + 1)
        && frames' == frames + [SolutionFrame(g, cur.path + [n], |cur.path|)]
      else
        q' == q && visited' == visited && disc' == disc && frames' == frames
    ensures Search(g, q', visited', dist', {cur.pos}, level)
    ensures Discovered(g, visited', dist', disc', frames', level)
    ensures cur.pos in dist' && dist'[cur.pos] == level
    ensures visited <= visited' && |q'| - |q| == |visited'| - |visited| && |disc'| - |disc| == |visited'| - |visited|
    ensures Tried(g, visited', cur.pos, d + 1)
  {
    var n := Neighbor(cur.pos, d);
    if Admits(g, visited, n) {
      dist' := AdmitKeeps(g, cur, n, level, dist, q, visited, disc, frames);
    } else {
      dist' := dist;
    }
  }

  /** The admission branch of TryKeeps for the search invariant: n is
      recorded at one more than the node's length. */
  lemma AdmitSearch(g: Grid, cur: Node, n: Pos, level: int, dist: map<Pos, int>, q: seq<Node>, visited: set<Pos>)
      returns (dist': map<Pos, int>)
    requires IsMaze(g) && Adjacent(cur.pos, n) && Admits(g, visited, n)
    requires Search(g, q, visited, dist, {cur.pos}, level)
    requires IsRoute(g, cur.path, cur.pos) && cur.pos in dist && dist[cur.pos] == |cur.path| == level
    ensures Search(g, q + [Node(n, cur.path + [n])], visited + {n}, dist', {cur.pos}, level)
    ensures dist' == dist[n := level + 1]
    ensures IsRoute(g, cur.path + [n], n)
  {
    var p := cur.path + [n];
    RouteExtend(g, cur.path, cur.pos, n);
    AdmittedShortest(g, q, visited, dist, level, cur.pos, n);
    AdmitQueue(g, q, visited, dist, level, cur.pos, n, p);
    AdmitFrontier(g, q, visited, {cur.pos}, n, p);
    dist' := dist[n := level + 1];
  }

  /** The admission branch of TryKeeps, stated on the new state itself. */
  lemma AdmitKeeps(g: Grid, cur: Node, n: Pos, level: int, dist: map<Pos, int>,
                   q: seq<Node>, visited: set<Pos>, disc: seq<seq<Pos>>, frames: seq<Grid>)
      returns (dist': map<Pos, int>)
    requires IsMaze(g) && Adjacent(cur.pos, n) && Admits(g, visited, n)
    requires Search(g, q, visited, dist, {cur.pos}, level)
    requires Discovered(g, visited, dist, disc, frames, level)
    requires IsRoute(g, cur.path, cur.pos) && cur.pos in dist && dist[cur.pos] == |cur.path| == level
    requires PrefixInGrid(g, cur.path + [n], |cur.path| + 1)
    ensures Search(g, q + [Node(n, cur.path + [n])], visited + {n}, dist', {cur.pos}, level)
    ensures Discovered(g, visited + {n}, dist', disc + [cur.path + [n]],
                       frames + [SolutionFrame(g, cur.path + [n], |cur.path|)], level)
    ensures cur.pos in dist' && dist'[cur.pos] == level
    ensures |visited + {n}| == |visited| + 1
  {
    dist' := AdmitSearch(g, cur, n, level, dist, q, visited);
    AdmitDiscovered(g, visited, dist, disc, frames, level, n, cur.path + [n]);
    OneMore(visited, n);
  }

  lemma OneMore<T>(s: set<T>, x: T)
    requires x !in s
    ensures |s + {x}| == |s| + 1
  {
  }

  /** The inner loop over the four directions, in the solver's order
      (down, right, up, left), for the node just taken off the queue. */
  method ExpandNode(maze: Grid, node: Node, q: seq<Node>, visited: set<Pos>, disc: seq<seq<Pos>>, frames: seq<Grid>,
                    ghost dist: map<Pos, int>, ghost level: int)
      returns (q': seq<Node>, visited': set<Pos>, disc': seq<seq<Pos>>, frames': seq<Grid>, ghost dist': map<Pos, int>)
    requires IsMaze(maze)
    requires Search(maze, q, visited, dist, {node.pos}, level)
    requires Discovered(maze, visited, dist, disc, frames, level)
    requires IsRoute(maze, node.path, node.pos) && node.pos in dist && dist[node.pos] == |node.path| == level
    ensures Search(maze, q', visited', dist', {}, level)
    ensures Discovered(maze, visited', dist', disc', frames', level)
    ensures Expanded(maze, visited', node.pos)
    ensures visited <= visited' && |q'| - |q| == |visited'| - |visited| && |disc'| - |disc| == |visited'| - |visited|
    ensures q <= q' && disc <= disc' && frames <= frames'
    ensures forall i :: |q| <= i < |q'| ==> q'[i].pos in visited' - visited
  {
    q', visited', disc', frames', dist' := q, visited, disc, frames, dist;
    for i := 0 to 4
      invariant Search(maze, q', visited', dist', {node.pos}, level)
      invariant Discovered(maze, visited', dist', disc', frames', level)
      invariant node.pos in dist' && dist'[node.pos] == level
      invariant visited <= visited' && |q'| - |q| == |visited'| - |visited| && |disc'| - |disc| == |visited'| - |visited|
      invariant Tried(maze, visited', node.pos, i)
      invariant q <= q' && disc <= disc' && frames <= frames'
      invariant forall j :: |q| <= j < |q'| ==> q'[j].pos in visited' - visited
    {
      var q2, visited2, disc2, frames2 := TryNeighbor(maze, node, q', visited', disc', frames', i);
      dist' := TryKeeps(maze, node, i, level, dist', q', visited', disc', frames', q2, visited2, disc2, frames2);
      ghost var n := Neighbor(node.pos, i);
      FreshQueued(q, visited, q', visited', q2, visited2, Admits(maze, visited', n), Node(n, node.path + [n]));
      q', visited', disc', frames' := q2, visited2, disc2, frames2;
    }
    ExpandedDone(maze, q', visited', dist', level, node.pos);
  }

  /** The queue keeps its old entries in front, and each entry behind them
      is a cell visited since: kept when a step queues a fresh cell and
      marks it visited, or does neither. */
  lemma FreshQueued(q: seq<Node>, visited: set<Pos>, qb: seq<Node>, vb: set<Pos>,
                    q2: seq<Node>, v2: set<Pos>, grew: bool, x: Node)
    requires q <= qb && visited <= vb
    requires forall i :: |q| <= i < |qb| ==> qb[i].pos in vb - visited
    requires grew ==> q2 == qb + [x] && v2 == vb + {x.pos} && x.pos !in vb
    requires !grew ==> q2 == qb && v2 == vb
    ensures q <= q2 && visited <= v2
    ensures forall i :: |q| <= i < |q2| ==> q2[i].pos in v2 - visited
  {
    if grew {
      forall i | |q| <= i < |q2|
        ensures q2[i].pos in v2 - visited
      {
        if i < |qb| {
          assert q2[i] == qb[i];
        }
      }
    }
  }

  /** The replay once the exit is taken off the queue: one frame per
      prefix of its path, (1, 1) alone first and the whole path last. */
  method ReplayFrames(maze: Grid, path: seq<Pos>) returns (frames: seq<Grid>)
    requires IsMaze(maze) && PrefixInGrid(maze, path, |path|)
    ensures |frames| == |path|
    ensures forall s :: 0 <= s < |path| ==> frames[s] == SolutionFrame(maze, path, s)
  {
    frames := [];
    for step := 0 to |path|
      invariant |frames| == step
      invariant forall s :: 0 <= s < step ==> frames[s] == SolutionFrame(maze, path, s)
    {
      frames := frames + [SolutionFrame(maze, path, step)];
    }
  }

  /** The breadth-first search with its frames. `discovered` lists the path
      of every admitted cell in admission order and `frames` the frames
      drawn: one per admission, then, when the exit is reached, one per
      prefix of its path.
      Found: the path is a route from (1, 1) to the exit and no route to the
      exit is shorter. NotFound: no route reaches the exit.
      Each admitted path is a shortest route to a distinct cell other than
      (1, 1), of two cells or more, and none is longer than a later one. */
  method Solve(maze: Grid) returns (outcome: Outcome, discovered: seq<seq<Pos>>, frames: seq<Grid>)
    requires IsMaze(maze)
    ensures outcome.Found? ==> IsRoute(maze, outcome.path, ExitOf(maze))
    ensures outcome.Found? ==> forall r :: IsRoute(maze, r, ExitOf(maze)) ==> |outcome.path| <= |r|
    ensures outcome.NotFound? ==> forall r :: !IsRoute(maze, r, ExitOf(maze))
    ensures outcome.NotFound? ==> AdmittedAll(maze, discovered)
    ensures outcome.Found? ==> AdmittedWithin(maze, discovered, |outcome.path|)
    ensures outcome.Found? ==> AdmittedBelow(discovered, |outcome.path| + 1)
    ensures ShortestAdmissions(maze, discovered)
    ensures InOrder(discovered)
    ensures var tail := if outcome.Found? then |outcome.path| else 0;
      |frames| == |discovered| + tail
    ensures forall k :: 0 <= k < |discovered| ==>
              PrefixInGrid(maze, discovered[k], |discovered[k]|)
              && frames[k] == SolutionFrame(maze, discovered[k], |discovered[k]| - 1)
    ensures outcome.Found? ==>
              PrefixInGrid(maze, outcome.path, |outcome.path|)
              && forall s :: 0 <= s < |outcome.path| ==> frames[|discovered| + s] == SolutionFrame(maze, outcome.path, s)
  {
    outcome, discovered, frames := Explore(maze);
    if outcome.Found? {
      var replay := ReplayFrames(maze, outcome.path);
      ShownAfter(maze, discovered, frames, replay, outcome.path);
      frames := frames + replay;
    }
  }

  /** The search loop up to the point where the exit is taken off the queue
      or the queue runs dry, with the admission frames drawn on the way. */
  method Explore(maze: Grid) returns (outcome: Outcome, discovered: seq<seq<Pos>>, frames: seq<Grid>)
    requires IsMaze(maze)
    ensures outcome.Found? ==> IsRoute(maze, outcome.path, ExitOf(maze)) && PrefixInGrid(maze, outcome.path, |outcome.path|)
    ensures outcome.Found? ==> forall r :: IsRoute(maze, r, ExitOf(maze)) ==> |outcome.path| <= |r|
    ensures outcome.NotFound? ==> forall r :: !IsRoute(maze, r, ExitOf(maze))
    ensures ShortestAdmissions(maze, discovered)
    ensures outcome.NotFound? ==> AdmittedAll(maze, discovered)
    ensures outcome.Found? ==> AdmittedWithin(maze, discovered, |outcome.path|)
    ensures outcome.Found? ==> AdmittedBelow(discovered, |outcome.path| + 1)
    ensures InOrder(discovered) && Drawn(maze, discovered, frames)
  {
    var q := [Node(Start, [Start])];
    var visited := {Start};
    discovered, frames := [], [];
    ghost var dist := map[Start := 1];
    ghost var level := 1;
    InitSearch(maze);
    while |q| > 0
      invariant Search(maze, q, visited, dist, {}, level)
      invariant Discovered(maze, visited, dist, discovered, frames, level)
      decreases |Cells(maze) - visited|, |q|
    {
      var node := q[0];
      ghost var front := q;
      q := q[1..];
      if node.pos == ExitOf(maze) {
        Arrived(maze, front, visited, dist, level, discovered, frames);
        return Found(node.path), discovered, frames;
      }
      PopKeeps(maze, front, visited, dist, level, discovered, frames);
      level := |node.path|;
      ghost var before := visited;
      q, visited, discovered, frames, dist := ExpandNode(maze, node, q, visited, discovered, frames, dist, level);
      Progress(maze, before, visited, dist);
    }
    outcome := NotFound;
    Drained(maze, visited, dist, level, discovered, frames);
  }

  /** The exit at the front of the queue ends the search: its path is a
      shortest route to it, every cell with a route no longer than that path
      was admitted, each admission is a shortest route, and none is more
      than one cell longer than that path. */
  lemma Arrived(g: Grid, q: seq<Node>, visited: set<Pos>, dist: map<Pos, int>, level: int,
                disc: seq<seq<Pos>>, frames: seq<Grid>)
    requires IsMaze(g) && |q| > 0 && q[0].pos == ExitOf(g)
    requires Search(g, q, visited, dist, {}, level)
    requires Discovered(g, visited, dist, disc, frames, level)
    ensures IsRoute(g, q[0].path, ExitOf(g)) && PrefixInGrid(g, q[0].path, |q[0].path|)
    ensures forall r :: IsRoute(g, r, ExitOf(g)) ==> |q[0].path| <= |r|
    ensures AdmittedWithin(g, disc, |q[0].path|) && ShortestAdmissions(g, disc)
    ensures AdmittedBelow(disc, |q[0].path| + 1)
  {
    PopKeeps(g, q, visited, dist, level, disc, frames);
    Reached(g, q[0], visited, dist);
    DiscoveredShortest(g, visited, dist, disc, frames, level);
    FrontCovered(g, q, visited, dist, level, disc, frames);
  }

  /** Taking the exit off the queue: its path is a route to it that no
      route undercuts, and every cell of it lies in the maze. */
  lemma Reached(g: Grid, node: Node, visited: set<Pos>, dist: map<Pos, int>)
    requires IsMaze(g) && Known(g, visited, dist)
    requires node.pos == ExitOf(g) && node.pos in visited && IsRoute(g, node.path, node.pos)
    requires node.pos in dist && dist[node.pos] == |node.path|
    ensures IsRoute(g, node.path, ExitOf(g))
    ensures forall r :: IsRoute(g, r, ExitOf(g)) ==> |node.path| <= |r|
    ensures PrefixInGrid(g, node.path, |node.path|)
  {
    RouteInGrid(g, node.path, node.pos);
  }

  /** When a path is taken off the queue, every cell with a route no longer
      than that path is already visited: everything short of the queue's
      front layer was expanded. So, other than (1, 1), it was admitted. */
  lemma FrontCovered(g: Grid, q: seq<Node>, visited: set<Pos>, dist: map<Pos, int>, level: int,
                     disc: seq<seq<Pos>>, frames: seq<Grid>)
    requires IsMaze(g) && |q| > 0
    requires Search(g, q, visited, dist, {}, level)
    requires Discovered(g, visited, dist, disc, frames, level)
    ensures AdmittedWithin(g, disc, |q[0].path|)
  {
    var lo := |q[0].path|;
    assert Layered(q, lo);
    forall v | v in visited
      ensures Expanded(g, visited, v) || dist[v] >= lo
    {
      if !Expanded(g, visited, v) {
        QueuedFar(g, q, visited, dist, lo, v);
      }
    }
    forall r, c | IsRoute(g, r, c) && c != Start && |r| <= lo
      ensures exists k :: 0 <= k < |disc| && |disc[k]| > 0 && Last(disc[k]) == c
    {
      UnvisitedFar(g, visited, dist, lo, r, c);
    }
  }

  /** With the queue empty and nothing pending, the exit was never visited,
      so no route reaches it. */
  lemma Exhausted(g: Grid, visited: set<Pos>, dist: map<Pos, int>, level: int)
    requires IsMaze(g) && Search(g, [], visited, dist, {}, level)
    ensures forall r :: !IsRoute(g, r, ExitOf(g))
    ensures forall r, c :: IsRoute(g, r, c) ==> c in visited
  {
    forall r, c | IsRoute(g, r, c)
      ensures c in visited
    {
      AllReachedVisited(g, visited, dist, r, c);
    }
    assert ExitOf(g) !in visited;
  }

  /** The queue ran dry: no route reaches the exit, every cell a route
      reaches was admitted, and each admission is a shortest route. */
  lemma Drained(g: Grid, visited: set<Pos>, dist: map<Pos, int>, level: int,
                disc: seq<seq<Pos>>, frames: seq<Grid>)
    requires IsMaze(g) && Search(g, [], visited, dist, {}, level)
    requires Discovered(g, visited, dist, disc, frames, level)
    ensures forall r :: !IsRoute(g, r, ExitOf(g))
    ensures AdmittedAll(g, disc) && ShortestAdmissions(g, disc)
  {
    Exhausted(g, visited, dist, level);
    DiscoveredShortest(g, visited, dist, disc, frames, level);
  }

  /** Each admission is a shortest route to its cell. */
  lemma DiscoveredShortest(g: Grid, visited: set<Pos>, dist: map<Pos, int>, disc: seq<seq<Pos>>, frames: seq<Grid>, level: int)
    requires IsMaze(g) && Known(g, visited, dist) && Admitted(g, visited, dist, disc, level)
    ensures ShortestAdmissions(g, disc)
  {
    forall k | 0 <= k < |disc|
      ensures Shortest(g, Last(disc[k]), |disc[k]|)
    {
      assert Last(disc[k]) in visited;
    }
  }

  /** Appending the replay keeps the admission frames in front of it. */
  lemma ShownAfter(g: Grid, disc: seq<seq<Pos>>, frames: seq<Grid>, replay: seq<Grid>, path: seq<Pos>)
    requires IsMaze(g) && Drawn(g, disc, frames)
    requires PrefixInGrid(g, path, |path|) && |replay| == |path|
    requires forall s :: 0 <= s < |path| ==> replay[s] == SolutionFrame(g, path, s)
    ensures forall k :: 0 <= k < |disc| ==>
              PrefixInGrid(g, disc[k], |disc[k]|)
              && (frames + replay)[k] == SolutionFrame(g, disc[k], |disc[k]| - 1)
    ensures forall s :: 0 <= s < |path| ==> (frames + replay)[|disc| + s] == SolutionFrame(g, path, s)
  {
  }

  /** Each pass either visits new cells of the maze or visits none. */
  lemma Progress(g: Grid, before: set<Pos>, visited: set<Pos>, dist: map<Pos, int>)
    requires Known(g, visited, dist) && before <= visited
    ensures before == visited || |Cells(g) - visited| < |Cells(g) - before|
  {
    if before != visited {
      VisitedInCells(g, visited, dist);
      ShrinkingRest(Cells(g), before, visited);
    }
  }
}
